=== FILE: README.md ===
# toiletnow — a Dafny model of the app's core

toiletnow is a React Native app that finds public toilets near the user.
It saves favourites, records visits and awards badges ("achievements")
for them. This project models the app's logic core as pure Dafny
functions over immutable records and proves properties of that model:

- **The state store** (`store/toilet-store.ts`). The state record and these
  actions:
  - saving and removing a favourite;
  - recording a visit and evaluating the four badge rules;
  - switching between miles and kilometres;
  - resetting the badges;
  - refreshing the nearby list around a new location: generate candidates,
    refresh the saved toilets' distances, merge in the saved toilets that
    are missing, and sort by distance.
- **The candidate generator** (`utils/location.ts`,
  `generateToiletsNearLocation`). It makes up to `count` random toilets
  within `maxDistance` of an origin and sorts them by distance.
- **The seed badge table** (`mocks/toilets.ts`). The store starts from it,
  and `resetAchievements` restores it.
- **The countdown** (`components/CountdownTimer.tsx`). Its once-a-second
  tick, the `m:ss` text and the switch to the accent colour in the last
  half minute.

Modules:

| file | module | contents |
|---|---|---|
| decimal.dfy | Decimal | How JavaScript prints an integer in decimal, and reading it back |
| seqs.dfy | Seqs | The order-keeping `filter`, duplicate-freedom, and the stable sort `Array.prototype.sort` performs with a subtracting comparator |
| types.dfy | ToiletTypes | `Toilet`, `Achievement`, `UnitSystem`; optional fields as `Option`; the `find` by id; the floating-point routines as function values |
| seed.dfy | Seed | The five seed badges |
| location.dfy | Location | The candidate generator |
| rules.dfy | AchievementRules | The four badge rules of `visitToilet` |
| store.dfy | ToiletStore | The state record, one function per action, and the invariants |
| countdown.dfy | Countdown | The countdown timer |

Conventions of the model:

- **Randomness.** Every `Math.random()` value is a `Draw`, a real in
  [0, 1). Loop iteration `i` of the generator reads its ten draws from
  `draws(i)`.
- **The clock.** `new Date()` is a parameter `now`, in milliseconds. A
  toilet's `lastVisited` is a millisecond timestamp rather than an ISO
  string.
- **Floating point.** Three routines are parameters bundled in `Numerics`:
  - the haversine distance, whose result is a non-negative real;
  - `toFixed(1)`;
  - `parseFloat(x.toFixed(2))`.

  All other arithmetic is on exact reals.
- **JavaScript truthiness.** `x || d` is written out. A missing or zero
  distance or rating is falsy, and so is a missing or zero goal or visit
  count.

Three behaviours of the code are easy to mistake for bugs in the model.
The model reproduces each of them:

- **Visiting an unknown id.** Visiting an id that no toilet in the list
  has leaves the list alone. First Plush is still unlocked, since its rule
  (store/toilet-store.ts:86-91) does not check that the id exists
  (`ToiletStore.VisitUnknownId`).
- **Badge progress can fall.** Marathon's progress is recomputed on every
  visit as the number of toilets visited in the last seven days
  (store/toilet-store.ts:99-103). It drops when older visits leave the
  window. Halfway There's progress is recomputed over the current list
  (store/toilet-store.ts:112), which each refresh replaces.

  What the model proves instead holds for every action except
  `resetAchievements`: a badge is never re-locked, and nothing but
  `unlocked` and `progress` changes (`ToiletStore.ActionsOnlyAdvanceAchievements`).
- **Saved toilets after a refresh.** The comments at
  store/toilet-store.ts:180 and :196 state the intent that saved toilets
  are included in the list. The code guarantees only that each saved *id*
  appears (`ToiletStore.FetchToiletsNearbyKeepsSaved`):
  - every refresh reissues the ids `toilet-0` to `toilet-14`;
  - the merge adds a saved toilet only when no fresh candidate already
    has its id.

  So a saved toilet whose id a fresh candidate reuses is replaced in the
  list by that unrelated, never-visited candidate
  (`ToiletStore.FetchToiletsNearbyShadowsSaved`,
  `ToiletStore.SavedVisitLostOnRefresh`).

## Model

| member | source | states |
|---|---|---|
| Seqs.Filter | store/toilet-store.ts:57 | The filtered list keeps exactly the elements that are in the input and satisfy the predicate, and is no longer than the input |
| Seqs.FilterConcat | store/toilet-store.ts:57 | Filtering a concatenation is concatenating the filtered parts, so survivors keep their relative order |
| Seqs.FilterIdempotent | store/toilet-store.ts:57 | Filtering twice by the same predicate is filtering once |
| Seqs.FilterNoDup | store/toilet-store.ts:57 | Filtering never creates two elements with the same key |
| Seqs.SortBy | store/toilet-store.ts:206-208 | The sorted list is a permutation of the input (same multiset), ascending in the comparator's order |
| Seqs.SortByMembers | store/toilet-store.ts:206-208 | Sorting neither adds nor drops an element |
| Seqs.SortByStable | store/toilet-store.ts:206-208 | Elements with equal keys keep their original relative order |
| Seqs.SortByNoDup | store/toilet-store.ts:206-208 | Sorting a list without duplicate ids yields a list without duplicate ids |
| ToiletTypes.FindAchievement | store/toilet-store.ts:87 | `find` by id returns the first position holding the id, and none when no entry has it |
| ToiletTypes.FindAchievementAt | store/toilet-store.ts:87 | A position holding the id, with no earlier position holding it, is exactly what `find` returns |
| Decimal.ParseNatToString | components/CountdownTimer.tsx:46 | Reading the printed decimal text of a natural number gives the number back |
| Decimal.NatToStringInjective | utils/location.ts:98 | Distinct numbers print as distinct texts |
| Seed.SeedAchievements | mocks/toilets.ts:3-49 | Five badges with pairwise distinct ids, all locked with progress 0 and a positive goal |
| Seed.SeedGoals | mocks/toilets.ts:3-49 | Looked up by id, the goals of First Plush, Speedy Peeper, Marathon, Halfway There and Golden Throne are 1, 1, 3, 50 and 1 |
| Location.Pick | utils/location.ts:93-94 | A random name or street index is always a valid index into its list |
| Location.RatingTenths | utils/location.ts:104 | The generated rating is between 1.0 and 4.9 in tenths |
| Location.StreetNumber | utils/location.ts:95 | The street number is between 1 and 1000 |
| Location.VisitDraw | utils/location.ts:108 | The seeded visit count is between 0 and 4 |
| Location.ToiletIdInjective | utils/location.ts:98 | Different loop indices give different ids |
| Location.Offset | utils/location.ts:82-86 | A coordinate moved by a random offset of half-width w stays within w of where it started |
| Location.OffsetLatitude | utils/location.ts:82-85 | The candidate's latitude is within `maxDistance / 69` degrees of the origin's |
| Location.OffsetLongitude | utils/location.ts:83-86 | The candidate's longitude is within `maxDistance / 53` degrees of the origin's |
| Location.Candidate | utils/location.ts:82-110 | Iteration i pushes a toilet iff the distance from the origin to its offset point is at most `maxDistance`. The toilet has id `toilet-i`, the offset point as coordinates, that distance, the drawn name, rating (tenths) and visit count, the three amenity flags from their thresholds (0.3, 0.2, 0.5), and no last visit |
| Location.CandidatePlausible | utils/location.ts:92-109 | A pushed toilet is within range, has a rating of whole tenths in [1.0, 4.9] and a visit count in [0, 4], and was never visited |
| Location.Collect | utils/location.ts:78-111 | The loop's result holds exactly the candidates accepted in the remaining iterations, at most one per iteration |
| Location.CollectUniqueIds | utils/location.ts:78-111 | When iteration j can only push id `toilet-j`, the loop's result has no two toilets with the same id |
| Location.IterationsSound | utils/location.ts:78-111 | Every iteration pushes, if anything, a plausible toilet whose id is `toilet-` followed by its own index |
| Location.CollectSound | utils/location.ts:78-111 | Every toilet the loop collects is plausible and has id `toilet-j` for some j below `count` |
| Location.SortedAscends | utils/location.ts:113-114 | Toilets that all have a distance, sorted by the generator's comparator, ascend by distance |
| Location.SortedCollect | utils/location.ts:78-114 | Sorting the collected toilets keeps them plausible with distinct ids `toilet-j`, j < count, and orders them by ascending distance |
| Location.GenerateToiletsNearLocationContents | utils/location.ts:32-115 | The result has at most `count` toilets and holds exactly the candidates accepted by some iteration below `count` |
| Location.AcceptedIdGenerated | utils/location.ts:78-114 | When iteration j below `count` accepts its candidate, the generated list carries the id `toilet-j` |
| Location.GeneratorKey | utils/location.ts:114 | A missing distance sorts as 0; `SortedAscends` shows the comparator orders toilets with distances ascending |
| Location.GenerateToiletsNearLocation | utils/location.ts:32-115 | The accepted candidates sorted by distance: `GenerateToiletsNearLocationContents` proves they are exactly the accepted candidates, at most `count`; `GenerateToiletsNearLocationSound` that they are plausible, with distinct ids, ascending by distance |
| Location.GenerateToiletsNearLocationSound | utils/location.ts:32-115 | Each generated toilet is plausible, with id `toilet-j` for some j < count; ids are distinct, and distances ascend |
| AchievementRules.AdvancesTransitive | store/toilet-store.ts:83-129 | Two steps that change only `unlocked` and `progress` and never re-lock compose into one such step |
| AchievementRules.FindSameIds | store/toilet-store.ts:83-129 | Lists with the same ids at every position give the same `find` result, so each rule finds its badge where the first rule did |
| AchievementRules.FirstPlushRule | store/toilet-store.ts:86-91 | Only the First Plush entry may change, and only in `unlocked` and `progress`; a badge is never re-locked |
| AchievementRules.MarathonRule | store/toilet-store.ts:93-107 | Only the Marathon entry may change, and only in `unlocked` and `progress`; a badge is never re-locked |
| AchievementRules.HalfwayRule | store/toilet-store.ts:109-116 | Only the Halfway There entry may change, and only in `unlocked` and `progress`; a badge is never re-locked |
| AchievementRules.GoldenThroneRule | store/toilet-store.ts:118-129 | Only the Golden Throne entry may change, and only in `unlocked` and `progress`; a badge is never re-locked |
| AchievementRules.Evaluate | store/toilet-store.ts:83-129 | The four rules in order keep every badge id in place, change only `unlocked` and `progress`, and never re-lock; `EvaluateFrame` and the four per-badge lemmas below state each badge's outcome |
| AchievementRules.EvaluateStages | store/toilet-store.ts:83-129 | Every intermediate list of the evaluation keeps the badge positions, and each stage only advances badges |
| AchievementRules.EvaluateFrame | store/toilet-store.ts:83-129 | One evaluation keeps the ids in place, never re-locks, and leaves every badge no rule targets unchanged (Speedy Peeper among them) |
| AchievementRules.EvaluateFirstPlush | store/toilet-store.ts:86-91 | After any visit First Plush is unlocked; if it was locked, its progress becomes 1; if it was unlocked, it is untouched |
| AchievementRules.EvaluateMarathon | store/toilet-store.ts:93-107 | Marathon's progress is the number of toilets visited in the last seven days; it is unlocked iff it already was or that number reaches its goal (3 by default) |
| AchievementRules.EvaluateHalfway | store/toilet-store.ts:109-116 | Halfway There's progress is the number of toilets with a positive visit count; it is unlocked iff it already was or that number reaches its goal (50 by default) |
| AchievementRules.EvaluateGoldenThrone | store/toilet-store.ts:118-129 | A locked Golden Throne becomes unlocked, with progress 1, iff some toilet with the visited id has a rating of at least 4.5 and a positive visit count; otherwise it is unchanged |
| ToiletStore.InitialState | store/toilet-store.ts:38-47 | The store starts valid, with the five seed badges all locked |
| ToiletStore.SaveToilet | store/toilet-store.ts:49-54 | Afterwards the id is saved. A toilet whose id is already saved leaves the state unchanged; otherwise it is appended at the end, keeping the earlier entries. Unique ids are preserved, and nothing else changes |
| ToiletStore.SaveToiletIdempotent | store/toilet-store.ts:49-54 | Saving the same toilet twice is saving it once |
| ToiletStore.RemoveSavedToilet | store/toilet-store.ts:56-58 | Afterwards no saved toilet has the id, and the survivors are exactly the other saved toilets. Removing an absent id changes nothing. Unique ids are preserved, and nothing else changes |
| ToiletStore.RemoveKeepsOrder | store/toilet-store.ts:56-58 | Removal keeps the remaining favourites in their order |
| ToiletStore.RemoveSavedToiletIdempotent | store/toilet-store.ts:56-58 | Removing twice is removing once |
| ToiletStore.RemoveUndoesSave | store/toilet-store.ts:49-58 | Removing a toilet just saved under a fresh id gives back the original state |
| ToiletStore.VisitToilets | store/toilet-store.ts:73-81 | Toilets with the visited id get one more visit (a missing count counts as 0) and are stamped with `now`; all others are unchanged; length and ids are kept |
| ToiletStore.VisitToilet | store/toilet-store.ts:71-135 | A visit changes only the toilet list and the badges. It keeps ids unique and the badge ids in place, and only advances badges |
| ToiletStore.VisitUnknownId | store/toilet-store.ts:71-91 | Visiting an id no toilet has leaves the list unchanged, yet First Plush ends unlocked |
| ToiletStore.VisitCountGrowth | store/toilet-store.ts:73-81 | If each visited toilet satisfies a property after its visit, the number of toilets satisfying it grows by exactly the visited ones that did not before |
| ToiletStore.VisitedCountAfterVisit | store/toilet-store.ts:73-112 | With no negative counts, the toilets with a positive visit count after a visit are those that had one plus the visited ones that had none |
| ToiletStore.RecentCountAfterVisit | store/toilet-store.ts:73-103 | The toilets visited in the last seven days after a visit are those that were plus the visited ones that were not |
| ToiletStore.VisitHalfwayProgress | store/toilet-store.ts:109-116 | After a visit, Halfway There's progress is the number of toilets visited before plus the visited ones that had never been visited |
| ToiletStore.VisitMarathonProgress | store/toilet-store.ts:93-107 | After a visit, Marathon's progress is the number of toilets recently visited before plus the visited ones that were not |
| ToiletStore.VisitHighRatedUnlocksGoldenThrone | store/toilet-store.ts:118-129 | Visiting a toilet rated 4.5 or higher leaves Golden Throne unlocked, with progress 1 if it was locked |
| ToiletStore.SetUnitSystem | store/toilet-store.ts:137-158 | The system is recorded, and choosing the current one changes nothing. On a change, every truthy distance in `toilets` is converted and rounded, and every other field of every toilet is kept. Falsy distances, the saved list and the rest of the state are untouched |
| ToiletStore.MilesRoundTrip | store/toilet-store.ts:145-149 | With rounding to cents, converting miles to kilometres and back moves a distance by less than 0.01 |
| ToiletStore.UnitSwitchRoundTrip | store/toilet-store.ts:137-158 | Switching a miles store to kilometres and back leaves every truthy distance within 0.01 of its old value |
| ToiletStore.RefreshSaved | store/toilet-store.ts:184-194 | The refreshed list has the saved toilets in the same order, each with every field but its distance unchanged; the distance is present, non-negative, and is the distance from the new origin to the toilet in the current unit |
| ToiletStore.MergeSaved | store/toilet-store.ts:197-203 | The generated list is kept as a prefix, and every saved id ends up in the list. Each entry is generated or saved. Unique ids are preserved |
| ToiletStore.StoreKey | store/toilet-store.ts:206-208 | Missing or zero distances sort last; `StoreSortOrdered` shows the comparator puts truthy distances first, ascending |
| ToiletStore.FetchToiletsNearby | store/toilet-store.ts:172-214 | The refreshed state: its saved list, flags and frame are stated by `FetchToiletsNearbySaved`, its list by `FetchToiletsNearbyKeepsSaved`, `FetchToiletsNearbyUniqueIds`, `FetchToiletsNearbyProvenance`, `FetchToiletsNearbyOrdered` and `FetchToiletsNearbyShadowsSaved` |
| ToiletStore.FetchToiletsNearbySaved | store/toilet-store.ts:172-214 | After a refresh the saved list is the same toilets in the same order with recomputed distances. Loading is over, there is no error, and nothing else but the toilet list changes |
| ToiletStore.SortedMerge | store/toilet-store.ts:196-208 | Merging saved toilets into a list with distinct ids and sorting keeps every saved id, keeps ids distinct, adds at most the saved toilets, and every entry comes from one of the two lists |
| ToiletStore.StoreSortOrdered | store/toilet-store.ts:205-208 | Sorting with the store's comparator puts truthy distances in ascending order ahead of missing or zero ones |
| ToiletStore.SameIdsKept | store/toilet-store.ts:184-203 | Refreshing changes no id, so a saved id is present whenever its refreshed toilet's id is |
| ToiletStore.FetchToiletsNearbyKeepsSaved | store/toilet-store.ts:178-203 | After a refresh every saved toilet's id is in the list |
| ToiletStore.FetchToiletsNearbyUniqueIds | store/toilet-store.ts:178-208 | After a refresh no two toilets share an id, so each saved id appears exactly once (not necessarily on the saved toilet), and there are at most 15 plus the number saved |
| ToiletStore.FetchToiletsNearbyProvenance | store/toilet-store.ts:178-203 | After a refresh every entry is a refreshed saved toilet or a plausible generated one with id `toilet-j`, j < 15 |
| ToiletStore.MergeSavedShadowed | store/toilet-store.ts:197-203 | A merged entry whose id the generated list already carries is a generated entry: a saved toilet never replaces or duplicates one with its id |
| ToiletStore.FetchToiletsNearbyShadowsSaved | store/toilet-store.ts:178-208 | When iteration j accepts its candidate and a saved toilet has id `toilet-j`, every entry of the refreshed list with that id is the fresh candidate: plausible and never visited |
| ToiletStore.SavedVisitLostOnRefresh | store/toilet-store.ts:178-214 | A visited saved `toilet-0` keeps its visit in the saved list, yet after a refresh whose first candidate is in range the list shows `toilet-0` only without a visit |
| ToiletStore.FetchToiletsNearbyOrdered | store/toilet-store.ts:205-208 | After a refresh the list ascends by distance, with missing or zero distances at the end |
| ToiletStore.SetCurrentLocation | store/toilet-store.ts:60-65 | The new location is recorded, the badges and unit are untouched, and loading ends without error |
| ToiletStore.ResetAchievements | store/toilet-store.ts:168-170 | Only the badges change: all five are back to locked with progress 0, and a valid store stays valid |
| ToiletStore.FetchPreservesValid | store/toilet-store.ts:172-214 | A refresh, centred anywhere, keeps ids unique in both lists and leaves the badges as they were |
| ToiletStore.ActionsPreserveValid | store/toilet-store.ts:49-214 | Every action, the refresh `fetchToiletsNearby` included, keeps ids unique in both lists and the badges at the seed's ids |
| ToiletStore.ActionsOnlyAdvanceAchievements | store/toilet-store.ts:49-214 | No action other than the reset, the refresh `fetchToiletsNearby` included, re-locks a badge or changes anything of a badge beyond `unlocked` and `progress` |
| Countdown.Tick | components/CountdownTimer.tsx:26-37 | A stopped timer does nothing. Otherwise a tick takes one second off, or borrows a minute at :00, or at 0:00 stops the timer and takes the completion branch |
| Countdown.TickCountsDown | components/CountdownTimer.tsx:26-37 | On a well-formed running clock, a tick before 0:00 takes exactly one second off and keeps the clock well formed; at 0:00 it completes and stops |
| Countdown.RunTicks | components/CountdownTimer.tsx:22-43 | Any number of ticks leaves a stopped timer as it is, and at most one tick takes the completion branch; a running timer has stopped exactly when one did |
| Countdown.RunCountsDown | components/CountdownTimer.tsx:22-43 | For n up to the seconds left, n ticks leave a running, well-formed clock n seconds lower that has not completed |
| Countdown.CompletesOnce | components/CountdownTimer.tsx:22-43 | Any number of ticks beyond the seconds left stops the timer at 0:00, having taken the completion branch exactly once |
| Countdown.CompletesAtZero | components/CountdownTimer.tsx:32-36 | A running clock at 0:00 takes the completion branch on the next tick and stops; later ticks change nothing |
| Countdown.QuietTick | components/CountdownTimer.tsx:27-31 | Before 0:00 a tick does not complete, so any run is one quiet tick followed by the run from the next state |
| Countdown.DefaultCountdown | components/CountdownTimer.tsx:12-43 | A timer started at the default 2:15 counts down for 135 ticks without completing, and after any more ticks has completed once and stopped at 0:00 |
| Countdown.CompletesThenStops | components/CountdownTimer.tsx:32-36 | After the completing tick, further ticks change nothing and never complete |
| Countdown.RunStopped | components/CountdownTimer.tsx:25 | A stopped timer has no interval: any number of ticks leaves it as it is |
| Countdown.SecondsText | components/CountdownTimer.tsx:46 | The seconds part is always two digits and reads back as the seconds |
| Countdown.TimeString | components/CountdownTimer.tsx:45-47 | The `m:ss` text; `SecondsText` and `TimeStringReadsBack` show both numbers read back, so distinct clocks show distinct texts |
| Countdown.TimeStringReadsBack | components/CountdownTimer.tsx:45-47 | For a well-formed clock the text is the minutes, a colon, and two digits of seconds, and both numbers read back, so distinct clocks show distinct texts |
| Countdown.ColorStyle | components/CountdownTimer.tsx:49-54 | The accent colour for the last 30 seconds; `UrgentIffLastHalfMinute` proves it shows iff at most 30 seconds are left |
| Countdown.UrgentIffLastHalfMinute | components/CountdownTimer.tsx:49-54 | On a well-formed clock, the accent colour is shown iff at most 30 seconds are left |
| Countdown.UrgentStaysUrgent | components/CountdownTimer.tsx:26-54 | Once the accent colour shows on a running clock, well formed or not, it still shows after the next tick |
| Countdown.UrgentStaysUrgentOnRun | components/CountdownTimer.tsx:25-54 | Once the accent colour shows on a well-formed clock, it shows after any number of further ticks, running or stopped |

## Left out

- The haversine arithmetic, `toFixed(1)` and `parseFloat(x.toFixed(2))` are parameters. They are floating-point routines. The model assumes only that a distance is a non-negative real.
- `Math.random` is not modelled. Its values are the explicit `draws` stream, read per loop iteration.
- `new Date()` is a parameter `now`. One `now` stands for both clock reads in `visitToilet`. `setDate(getDate() - 7)` is seven days of 86,400,000 ms each, so calendar and daylight-saving effects are not modelled.
- Persistence is not modelled: the `persist` middleware, `partialize`, JSON storage and AsyncStorage. It is I/O.
- `getCurrentLocation` (utils/location.ts:118 onward) is not modelled. It is a call to the device's location service.
- The `catch` path of `fetchToiletsNearby` and `console.error` are not modelled. With the numeric routines as total functions, nothing in the modelled path throws.
- The intermediate `isLoading: true` of `fetchToiletsNearby` is not modelled. It is overwritten within the same call, and only the committed state is modelled.
- Aliasing of badge objects is not modelled. `visitToilet` copies the array but mutates the badge objects it shares with `mockAchievements`. After badges have been earned since start-up, the source's `resetAchievements` therefore restores already-mutated objects. The model treats records as values, so a reset always restores the locked seed.
- The one-field setters are not modelled: `setSelectedToilet`, `setNotificationsEnabled`, `setAppearance`, `setError` and `setLoading`. Each only records its argument.
- `onComplete` is an optional prop (components/CountdownTimer.tsx:8) and the app mounts the timer without it. `Step.completed` and `Run.completions` count the ticks that take the completion branch (lines 32-36), which calls `onComplete` only when one was passed.
- React mechanics are not modelled: `setInterval` timing, effect re-subscription and rendering. A tick is one call of `Countdown.Tick`, with the initial values 2 and 15 as constants.
- Presentation components and screens are not modelled.
- `Array.prototype.sort` is modelled as a stable sort. Comparing two infinite distances yields NaN, which the sort treats as equal.
- ToiletStore.MilesRoundTrip: proved only under the hypothesis that rounding to two decimals moves a value by at most 0.005. The Kilometres → Miles → Kilometres direction is not claimed, because its error can exceed 0.01.
- ToiletStore.SetCurrentLocation: its contract only covers the location, badges, unit and loading flags. The toilet list it produces is described by `ToiletStore.FetchToiletsNearbySaved`, `FetchToiletsNearbyKeepsSaved`, `FetchToiletsNearbyUniqueIds`, `FetchToiletsNearbyProvenance` and `FetchToiletsNearbyOrdered`.
- Location.GenerateToiletsNearLocationSound: the generated address text is not described, since it depends on the `toFixed(1)` parameter.
- Units are not reconciled during a refresh. Generated distances are always in miles, while the saved toilets' refreshed distances use the current unit. The model reproduces this mix and proves nothing about units.

=== FILE: countdown.dfy ===
/** The countdown shown while walking to a toilet
    (components/CountdownTimer.tsx): the once-a-second tick, the `m:ss`
    text and the colour switch for the last half minute. */
module Countdown {
  import Decimal

  const DefaultMinutes: int := 2
  const DefaultSeconds: int := 15

  datatype Timer = Timer(minutes: int, seconds: int, running: bool)

  /** The state after a tick and whether it took the completion branch
      (the one that calls `onComplete`, when one was passed). */
  datatype Step = Step(next: Timer, completed: bool)

  /** A fresh timer is running (the `useState(true)`). */
  function Start(minutes: int, seconds: int): (t: Timer) {
    Timer(minutes, seconds, true)
  }

  /** Seconds left on the clock. */
  function Total(t: Timer): (r: int) {
    60 * t.minutes + t.seconds
  }

  /** Minutes non-negative, seconds a clock value 0..59. */
  predicate WellFormed(t: Timer) {
    t.minutes >= 0 && 0 <= t.seconds <= 59
  }

  /** The interval callback. A stopped timer has no interval, so nothing
      happens. */
  function Tick(t: Timer): (s: Step)
    ensures !t.running ==> s == Step(t, false)
    ensures t.running && t.seconds > 0 ==>
      s.next == Timer(t.minutes, t.seconds - 1, true) && !s.completed
    ensures t.running && t.seconds <= 0 && t.minutes > 0 ==>
      s.next == Timer(t.minutes - 1, 59, true) && !s.completed
    ensures t.running && t.seconds <= 0 && t.minutes <= 0 ==>
      s.next == t.(running := false) && s.completed
  {
    if !t.running then Step(t, false)
    else if t.seconds > 0 then Step(t.(seconds := t.seconds - 1), false)
    else if t.minutes > 0 then Step(Timer(t.minutes - 1, 59, true), false)
    else Step(t.(running := false), true)
  }

  /** A running, well-formed tick stays well formed and, before 0:00, takes
      exactly one second off the clock. */
  lemma TickCountsDown(t: Timer)
    requires WellFormed(t) && t.running
    ensures WellFormed(Tick(t).next)
    ensures Total(t) > 0 ==> Total(Tick(t).next) == Total(t) - 1 && Tick(t).next.running && !Tick(t).completed
    ensures Total(t) == 0 ==> Tick(t).completed && !Tick(t).next.running
  {
  }

  /** The outcome of n ticks: final state and how many of them took the
      completion branch. */
  datatype Run = Run(final: Timer, completions: nat)

  /** n ticks from `t`. A stopped timer stays as it is; at most one tick
      takes the completion branch, and a running timer has stopped exactly
      when one did. */
  function RunTicks(t: Timer, n: nat): (r: Run)
    ensures !t.running ==> r == Run(t, 0)
    ensures r.completions <= 1
    ensures t.running ==> (r.completions == 1 <==> !r.final.running)
    decreases n
  {
    if n == 0 then Run(t, 0)
    else
      var step := Tick(t);
      var rest := RunTicks(step.next, n - 1);
      Run(rest.final, rest.completions + if step.completed then 1 else 0)
  }

  /** After n ticks, n at most the seconds on the clock, the timer is still
      running and well formed, shows exactly n seconds less, and has not
      completed. */
  lemma {:induction false} RunCountsDown(t: Timer, n: nat)
    requires WellFormed(t) && t.running
    requires n <= Total(t)
    ensures var r := RunTicks(t, n);
      && WellFormed(r.final) && r.final.running
      && Total(r.final) == Total(t) - n
      && r.completions == 0
    decreases n
  {
    if n > 0 {
      TickCountsDown(t);
      RunCountsDown(Tick(t).next, n - 1);
    }
  }

  /** A well-formed timer takes the completion branch exactly once, on the tick after
      it reaches 0:00, i.e. on tick number `60 * minutes + seconds + 1`,
      and then stays stopped at 0:00. */
  lemma {:induction false} CompletesOnce(t: Timer, k: nat)
    requires WellFormed(t) && t.running
    requires k > Total(t)
    ensures RunTicks(t, k) == Run(Timer(0, 0, false), 1)
    decreases k
  {
    if Total(t) == 0 {
      CompletesAtZero(t, k);
    } else {
      TickCountsDown(t);
      QuietTick(t, k);
      CompletesOnce(Tick(t).next, k - 1);
    }
  }

  /** The timer started from the default 2:15, running: for
      its first 135 ticks it counts down without completing, and after any
      later number of ticks it has completed once and stopped at
      0:00. */
  lemma DefaultCountdown(n: nat)
    ensures var t := Start(DefaultMinutes, DefaultSeconds);
      && Total(t) == 135
      && (n <= 135 ==>
            && RunTicks(t, n).final.running
            && Total(RunTicks(t, n).final) == 135 - n
            && RunTicks(t, n).completions == 0)
      && (n > 135 ==> RunTicks(t, n) == Run(Timer(0, 0, false), 1))
  {
    var t := Start(DefaultMinutes, DefaultSeconds);
    if n <= 135 {
      RunCountsDown(t, n);
    } else {
      CompletesOnce(t, n);
    }
  }

  /** At 0:00 the next tick takes the completion branch and stops the timer, and
      later ticks change nothing. */
  lemma CompletesAtZero(t: Timer, k: nat)
    requires WellFormed(t) && t.running && Total(t) == 0
    requires k >= 1
    ensures RunTicks(t, k) == Run(Timer(0, 0, false), 1)
  {
    assert Tick(t).next == Timer(0, 0, false);
    CompletesThenStops(t, k);
  }

  /** Before 0:00 a tick does not complete, so the run is the run from the
      next state. */
  lemma QuietTick(t: Timer, k: nat)
    requires WellFormed(t) && t.running && Total(t) > 0
    requires k >= 1
    ensures RunTicks(t, k) == RunTicks(Tick(t).next, k - 1)
  {
    TickCountsDown(t);
    RunStep(t, k);
  }

  /** One tick followed by the remaining n - 1. */
  lemma RunStep(t: Timer, n: nat)
    requires n >= 1
    ensures RunTicks(t, n).final == RunTicks(Tick(t).next, n - 1).final
    ensures RunTicks(t, n).completions
      == RunTicks(Tick(t).next, n - 1).completions + (if Tick(t).completed then 1 else 0)
  {
  }

  /** A tick that completes and stops the timer is the last one that does
      anything: after it, further ticks leave the run unchanged. */
  lemma {:induction false} CompletesThenStops(t: Timer, k: nat)
    requires k >= 1
    requires Tick(t).completed && !Tick(t).next.running
    ensures RunTicks(t, k) == Run(Tick(t).next, 1)
  {
    RunStopped(Tick(t).next, k - 1);
    RunStep(t, k);
  }

  /** A stopped timer has no interval: ticks change nothing. */
  lemma {:induction false} RunStopped(t: Timer, n: nat)
    requires !t.running
    ensures RunTicks(t, n) == Run(t, 0)
    decreases n
  {
    if n > 0 {
      RunStopped(t, n - 1);
    }
  }

  /** getTimeString: the minutes, a colon, and the seconds zero-padded to
      two places when below ten. */
  function TimeString(minutes: int, seconds: int): (r: string) {
    Decimal.IntToString(minutes) + ":" + (if seconds < 10 then "0" else "") + Decimal.IntToString(seconds)
  }

  /** The seconds part: always two digits, reading back as the seconds. */
  lemma SecondsText(seconds: int)
    requires 0 <= seconds <= 59
    ensures var sec := (if seconds < 10 then "0" else "") + Decimal.IntToString(seconds);
      && |sec| == 2 && Decimal.AllDigits(sec) && Decimal.ParseDecimal(sec) == seconds
  {
    var sec := (if seconds < 10 then "0" else "") + Decimal.IntToString(seconds);
    Decimal.ParseNatToString(seconds);
    if seconds < 10 {
      assert sec == ['0', Decimal.DigitChar(seconds)];
      assert sec[..1] == ['0'];
    } else {
      assert Decimal.NatToString(seconds) == Decimal.NatToString(seconds / 10) + [Decimal.DigitChar(seconds % 10)];
      assert |Decimal.NatToString(seconds / 10)| == 1;
    }
  }

  /** For a well-formed clock the text is the minutes in decimal, a colon,
      and exactly two digits of seconds; both read back, so distinct clock
      states show distinct texts. */
  lemma TimeStringReadsBack(minutes: nat, seconds: int)
    requires 0 <= seconds <= 59
    ensures var s := TimeString(minutes, seconds);
      && |s| >= 4
      && s[|s| - 3] == ':'
      && Decimal.AllDigits(s[..|s| - 3]) && Decimal.AllDigits(s[|s| - 2..])
      && Decimal.ParseDecimal(s[..|s| - 3]) == minutes
      && Decimal.ParseDecimal(s[|s| - 2..]) == seconds
  {
    var m := Decimal.NatToString(minutes);
    var sec := (if seconds < 10 then "0" else "") + Decimal.IntToString(seconds);
    SecondsText(seconds);
    Decimal.ParseNatToString(minutes);
    var s := TimeString(minutes, seconds);
    assert s == m + ":" + sec;
    assert s[..|s| - 3] == m;
    assert s[|s| - 2..] == sec;
  }

  datatype TimeColor = Accent | Text

  /** getColorStyle: the accent colour at 0:30 and below. */
  function ColorStyle(minutes: int, seconds: int): (r: TimeColor) {
    if minutes == 0 && seconds <= 30 then Accent else Text
  }

  /** On a well-formed clock the accent colour means at most 30 seconds
      left, and conversely. */
  lemma UrgentIffLastHalfMinute(t: Timer)
    requires WellFormed(t)
    ensures ColorStyle(t.minutes, t.seconds) == Accent <==> Total(t) <= 30
  {
  }

  /** Once urgent, a running timer stays urgent on every tick, whether or not its clock is well formed. */
  lemma UrgentStaysUrgent(t: Timer)
    requires t.running
    requires ColorStyle(t.minutes, t.seconds) == Accent
    ensures ColorStyle(Tick(t).next.minutes, Tick(t).next.seconds) == Accent
  {
  }

  /** Once urgent, a well-formed timer stays urgent through any number of
      further ticks, running or stopped. */
  lemma {:induction false} UrgentStaysUrgentOnRun(t: Timer, n: nat)
    requires WellFormed(t)
    requires ColorStyle(t.minutes, t.seconds) == Accent
    ensures ColorStyle(RunTicks(t, n).final.minutes, RunTicks(t, n).final.seconds) == Accent
    decreases n
  {
    if n > 0 {
      var next := Tick(t).next;
      if t.running {
        TickCountsDown(t);
        UrgentStaysUrgent(t);
      } else {
        assert next == t;
      }
      UrgentStaysUrgentOnRun(next, n - 1);
      RunStep(t, n);
    }
  }
}

=== FILE: decimal.dfy ===
/** Decimal rendering of integers, as JavaScript prints an integer inside
    a template string: no leading zeros, a leading '-' for negatives. Used
    for the generated ids and for the countdown's minutes:seconds text. */
module Decimal {

  predicate IsDigit(c: char) {
    '0' <= c <= '9'
  }

  predicate AllDigits(s: string) {
    forall i :: 0 <= i < |s| ==> IsDigit(s[i])
  }

  function DigitChar(d: int): (c: char)
    requires 0 <= d <= 9
    ensures IsDigit(c)
    ensures c as int - '0' as int == d
  {
    ('0' as int + d) as char
  }

  function DigitValue(c: char): (d: int)
    requires IsDigit(c)
    ensures 0 <= d <= 9
    ensures DigitChar(d) == c
  {
    c as int - '0' as int
  }

  /** Base-10 text of a natural number, most significant digit first. */
  function NatToString(n: nat): (s: string)
    ensures 1 <= |s|
    ensures AllDigits(s)
    ensures s[0] == '0' ==> n == 0
    ensures n < 10 <==> |s| == 1
    decreases n
  {
    if n < 10 then [DigitChar(n)] else NatToString(n / 10) + [DigitChar(n % 10)]
  }

  /** An integer in decimal, with a '-' in front when negative. */
  function IntToString(n: int): (s: string)
    ensures 1 <= |s|
    ensures n >= 0 ==> AllDigits(s)
    ensures n < 0 <==> s[0] == '-'
  {
    if n < 0 then "-" + NatToString(-n) else NatToString(n)
  }

  /** Reads a string of digits as a base-10 number (the empty string reads as 0). */
  function ParseDecimal(s: string): (n: nat)
    requires AllDigits(s)
    ensures |s| == 1 ==> n == DigitValue(s[0])
  {
    if s == [] then 0 else ParseDecimal(s[..|s| - 1]) * 10 + DigitValue(s[|s| - 1])
  }

  /** Reading back the text of n gives n. */
  lemma {:induction false} ParseNatToString(n: nat)
    ensures ParseDecimal(NatToString(n)) == n
    decreases n
  {
    if n >= 10 {
      var prefix := NatToString(n / 10);
      var s := NatToString(n);
      assert s == prefix + [DigitChar(n % 10)];
      assert s[..|s| - 1] == prefix;
      ParseNatToString(n / 10);
    }
  }

  /** Distinct numbers have distinct texts. */
  lemma NatToStringInjective(a: nat, b: nat)
    ensures NatToString(a) == NatToString(b) ==> a == b
  {
    if NatToString(a) == NatToString(b) {
      ParseNatToString(a);
      ParseNatToString(b);
    }
  }
}

=== FILE: location.dfy ===
/** Candidate synthesis (utils/location.ts, generateToiletsNearLocation):
    `count` random offsets around an origin, each kept only if its distance
    is within `maxDistance`, dressed with bounded random attributes, then
    sorted by distance. Every `Math.random()` value is an explicit draw. */
module Location {
  import opened ToiletTypes
  import opened Seqs
  import Decimal

  /** One `Math.random()` value. */
  type Draw = r: real | 0.0 <= r < 1.0

  /** The draws one loop iteration consumes, in source order. */
  datatype CandidateDraws = CandidateDraws(
    latitude: Draw,
    longitude: Draw,
    name: Draw,
    street: Draw,
    streetNumber: Draw,
    rating: Draw,
    free: Draw,
    accessible: Draw,
    changingTable: Draw,
    visits: Draw)

  /** The arguments of one call. */
  datatype Request = Request(latitude: real, longitude: real, count: int, maxDistance: real)

  const Names: seq<string> := [
    "Central Park Restroom", "City Mall Facilities", "Downtown Public Toilet",
    "Green Park Restroom", "Train Station Facilities", "Bus Terminal Restroom",
    "Library Toilet", "Museum Facilities", "Coffee Shop Restroom",
    "Gas Station Toilet", "Fast Food Restroom", "Hotel Lobby Facilities",
    "Beach Public Toilet", "Shopping Center Restroom", "Hospital Visitor Facilities"]

  const Streets: seq<string> := [
    "Main St", "Broadway", "Park Ave", "Oak Lane", "Maple Rd",
    "Washington Blvd", "Lincoln Ave", "Market St", "River Rd", "Highland Ave",
    "Center St", "Church St", "Lake Dr", "Pine St", "Cedar Ln"]

  /** A uniform index into a list of n entries. */
  function Pick(u: Draw, n: nat): (k: nat)
    requires n > 0
    ensures k < n
  {
    assert u * (n as real) < n as real by {
      assert (1.0 - u) * (n as real) > 0.0;
    }
    (u * (n as real)).Floor
  }

  /** The rating in tenths: 1.0 to 4.9. */
  function RatingTenths(u: Draw): (t: int)
    ensures 10 <= t <= 49
  {
    (u * 40.0 + 10.0).Floor
  }

  /** The street number, 1 to 1000. */
  function StreetNumber(u: Draw): (n: int)
    ensures 1 <= n <= 1000
  {
    (u * 1000.0).Floor + 1
  }

  /** The seeded visit count, 0 to 4. */
  function VisitDraw(u: Draw): (v: int)
    ensures 0 <= v <= 4
  {
    (u * 5.0).Floor
  }

  /** The id of the toilet made in iteration i. */
  function ToiletId(i: nat): (r: string) {
    "toilet-" + Decimal.NatToString(i)
  }

  lemma ToiletIdInjective(a: nat, b: nat)
    ensures ToiletId(a) == ToiletId(b) ==> a == b
  {
    if ToiletId(a) == ToiletId(b) {
      assert ToiletId(a)[7..] == Decimal.NatToString(a);
      assert ToiletId(b)[7..] == Decimal.NatToString(b);
      Decimal.NatToStringInjective(a, b);
    }
  }

  /** The candidate's latitude: the origin moved by a uniform offset of at
      most maxDistance / 69 degrees (about 69 miles to a degree). */
  function OffsetLatitude(req: Request, u: Draw): (lat: real)
    ensures req.maxDistance >= 0.0 ==>
      req.latitude - req.maxDistance / 69.0 <= lat <= req.latitude + req.maxDistance / 69.0
  {
    Offset(req.latitude, u, req.maxDistance / 69.0)
  }

  /** The candidate's longitude: the origin moved by a uniform offset of at
      most maxDistance / 53 degrees (about 53 miles to a degree at 40°). */
  function OffsetLongitude(req: Request, u: Draw): (lng: real)
    ensures req.maxDistance >= 0.0 ==>
      req.longitude - req.maxDistance / 53.0 <= lng <= req.longitude + req.maxDistance / 53.0
  {
    Offset(req.longitude, u, req.maxDistance / 53.0)
  }

  /** `base + (Math.random() * 2 - 1) * w`, which lies in [base - w, base + w]. */
  function Offset(base: real, u: Draw, w: real): (x: real)
    ensures w >= 0.0 ==> base - w <= x <= base + w
  {
    assert w >= 0.0 ==> 0.0 <= u * w <= w by {
      if w >= 0.0 {
        assert (1.0 - u) * w >= 0.0;
      }
    }
    base + (u * 2.0 - 1.0) * w
  }

  /** The haversine distance, in miles, from the origin to the candidate
      point of one iteration. */
  function CandidateDistance(req: Request, num: Numerics, d: CandidateDraws): (dist: real)
    ensures dist >= 0.0
  {
    num.distance(req.latitude, req.longitude, OffsetLatitude(req, d.latitude), OffsetLongitude(req, d.longitude), false)
  }

  /** Iteration i of the loop: the toilet it pushes, or None when the
      candidate lies beyond `maxDistance`. Distances are in miles. */
  function Candidate(req: Request, num: Numerics, i: nat, d: CandidateDraws): (r: Option<Toilet>)
    ensures r.Some? <==> CandidateDistance(req, num, d) <= req.maxDistance
    ensures r.Some? ==>
      && r.value.id == ToiletId(i)
      && r.value.name == Names[Pick(d.name, |Names|)]
      && r.value.latitude == OffsetLatitude(req, d.latitude)
      && r.value.longitude == OffsetLongitude(req, d.longitude)
      && r.value.distance == Some(CandidateDistance(req, num, d))
      && r.value.rating == Some(RatingTenths(d.rating) as real / 10.0)
      && r.value.isFree == (d.free > 0.3)
      && r.value.isAccessible == (d.accessible > 0.2)
      && r.value.hasChangingTable == (d.changingTable > 0.5)
      && r.value.lastVisited.None?
      && r.value.visitCount == Some(VisitDraw(d.visits))
    ensures r.Some? ==> r.value.distance.Some? && 0.0 <= r.value.distance.value <= req.maxDistance
  {
    var lat := OffsetLatitude(req, d.latitude);
    var lng := OffsetLongitude(req, d.longitude);
    var distance := CandidateDistance(req, num, d);
    if distance <= req.maxDistance then
      var address := Decimal.IntToString(StreetNumber(d.streetNumber)) + " "
        + Streets[Pick(d.street, |Streets|)] + ", " + num.toFixed1(distance) + " miles away";
      Some(Toilet(
        ToiletId(i),
        Names[Pick(d.name, |Names|)],
        address,
        lat,
        lng,
        Some(distance),
        Some(RatingTenths(d.rating) as real / 10.0),
        d.free > 0.3,
        d.accessible > 0.2,
        d.changingTable > 0.5,
        None,
        Some(VisitDraw(d.visits))))
    else None
  }

  /** A toilet the generator can produce: within range, rating a whole
      number of tenths in [1.0, 4.9], visit count in [0, 4], never visited. */
  predicate Plausible(t: Toilet, maxDistance: real) {
    && t.distance.Some? && 0.0 <= t.distance.value <= maxDistance
    && t.rating.Some? && 1.0 <= t.rating.value <= 4.9
    && (t.rating.value * 10.0).Floor as real == t.rating.value * 10.0
    && t.visitCount.Some? && 0 <= t.visitCount.value <= 4
    && t.lastVisited.None?
  }

  lemma {:induction false} CandidatePlausible(req: Request, num: Numerics, i: nat, d: CandidateDraws)
    ensures Candidate(req, num, i, d).Some? ==> Plausible(Candidate(req, num, i, d).value, req.maxDistance)
  {
    var t := RatingTenths(d.rating);
    assert (t as real / 10.0) * 10.0 == t as real;
  }

  /** The loop's iterations as a function from the index to the toilet it
      pushes, if any. */
  function Iterations(req: Request, num: Numerics, draws: nat -> CandidateDraws): (cand: nat -> Option<Toilet>) {
    (j: nat) => Candidate(req, num, j, draws(j))
  }

  /** Iterations i, i+1, ..., count-1 of the loop: the accepted candidates
      in loop order. */
  function Collect(cand: nat -> Option<Toilet>, count: int, i: nat): (r: seq<Toilet>)
    ensures |r| <= if count > i then count - i else 0
    ensures forall t :: t in r ==> exists j :: i <= j < count && cand(j) == Some(t)
    ensures forall j :: i <= j < count && cand(j).Some? ==> cand(j).value in r
    decreases count - i
  {
    if i >= count then []
    else
      (match cand(i)
       case None => []
       case Some(t) => [t])
      + Collect(cand, count, i + 1)
  }

  /** When iteration j can only push id `toilet-j`, the loop's result has
      no two toilets with the same id. */
  lemma {:induction false} CollectUniqueIds(cand: nat -> Option<Toilet>, count: int, i: nat)
    requires forall j :: cand(j).Some? ==> cand(j).value.id == ToiletId(j)
    ensures UniqueIds(Collect(cand, count, i))
    decreases count - i
  {
    if i < count {
      var rest := Collect(cand, count, i + 1);
      CollectUniqueIds(cand, count, i + 1);
      if cand(i).Some? {
        var t := cand(i).value;
        assert Collect(cand, count, i) == [t] + rest;
        forall u | u in rest ensures IdOf(u) != IdOf(t) {
          var j :| i + 1 <= j < count && cand(j) == Some(u);
          ToiletIdInjective(i, j);
        }
        ConsUniqueIds(t, rest);
      }
    }
  }

  /** Putting a toilet with a fresh id in front keeps ids distinct. */
  lemma ConsUniqueIds(t: Toilet, rest: seq<Toilet>)
    requires UniqueIds(rest)
    requires forall u :: u in rest ==> IdOf(u) != IdOf(t)
    ensures UniqueIds([t] + rest)
  {
    var r := [t] + rest;
    forall a, b | 0 <= a < b < |r| ensures IdOf(r[a]) != IdOf(r[b]) {
      if a > 0 {
        assert r[a] == rest[a - 1] && r[b] == rest[b - 1];
      } else {
        assert r[b] in rest;
      }
    }
  }

  /** The generator's sort key: a missing distance counts as 0. */
  function GeneratorKey(t: Toilet): (r: SortKey) {
    Finite(if t.distance.Some? then t.distance.value else 0.0)
  }

  /** generateToiletsNearLocation: the accepted candidates, sorted. */
  function GenerateToiletsNearLocation(req: Request, num: Numerics, draws: nat -> CandidateDraws): (r: seq<Toilet>) {
    SortBy(Collect(Iterations(req, num, draws), req.count, 0), GeneratorKey)
  }

  /** The generated list is exactly the accepted candidates, at most
      `count` of them. */
  lemma {:induction false} GenerateToiletsNearLocationContents(req: Request, num: Numerics, draws: nat -> CandidateDraws)
    ensures var r := GenerateToiletsNearLocation(req, num, draws);
      && |r| <= (if req.count > 0 then req.count else 0)
      && (forall t :: t in r <==> exists j :: 0 <= j < req.count && Candidate(req, num, j, draws(j)) == Some(t))
  {
    var cand := Iterations(req, num, draws);
    var candidates := Collect(cand, req.count, 0);
    SortByMembers(candidates, GeneratorKey);
    forall t ensures t in candidates <==> exists j :: 0 <= j < req.count && Candidate(req, num, j, draws(j)) == Some(t) {
      if t in candidates {
        var j :| 0 <= j < req.count && cand(j) == Some(t);
      }
      if exists j :: 0 <= j < req.count && Candidate(req, num, j, draws(j)) == Some(t) {
        var j :| 0 <= j < req.count && Candidate(req, num, j, draws(j)) == Some(t);
        assert cand(j) == Some(t);
      }
    }
  }

  /** When iteration j (below count) accepts its candidate, the generated
      list carries the id `toilet-j`. */
  lemma AcceptedIdGenerated(req: Request, num: Numerics, draws: nat -> CandidateDraws, j: nat)
    ensures j < req.count && Candidate(req, num, j, draws(j)).Some? ==>
      HasId(GenerateToiletsNearLocation(req, num, draws), ToiletId(j))
  {
    if j < req.count && Candidate(req, num, j, draws(j)).Some? {
      var r := GenerateToiletsNearLocation(req, num, draws);
      var c := Candidate(req, num, j, draws(j)).value;
      GenerateToiletsNearLocationContents(req, num, draws);
      assert c in r;
      var i :| 0 <= i < |r| && r[i] == c;
    }
  }

  /** Every toilet has a distance, and distances ascend along the list. */
  predicate DistancesAscend(s: seq<Toilet>) {
    forall a, b :: 0 <= a < b < |s| ==>
      s[a].distance.Some? && s[b].distance.Some? && s[a].distance.value <= s[b].distance.value
  }

  /** What every iteration guarantees about the toilet it pushes. */
  predicate SoundIteration(cand: nat -> Option<Toilet>, maxDistance: real, j: nat) {
    cand(j).Some? ==> cand(j).value.id == ToiletId(j) && Plausible(cand(j).value, maxDistance)
  }

  /** Each iteration of the generator pushes only a plausible toilet with
      the id of its index. */
  lemma {:induction false} IterationsSound(req: Request, num: Numerics, draws: nat -> CandidateDraws)
    ensures forall j: nat :: SoundIteration(Iterations(req, num, draws), req.maxDistance, j)
  {
    forall j: nat ensures SoundIteration(Iterations(req, num, draws), req.maxDistance, j) {
      CandidatePlausible(req, num, j, draws(j));
    }
  }

  /** The accepted candidates of sound iterations are plausible and carry
      the id of an index below count. */
  lemma {:induction false} CollectSound(cand: nat -> Option<Toilet>, count: int, maxDistance: real)
    requires forall j: nat :: SoundIteration(cand, maxDistance, j)
    ensures forall t :: t in Collect(cand, count, 0) ==>
      Plausible(t, maxDistance) && exists j :: 0 <= j < count && t.id == ToiletId(j)
  {
    forall t | t in Collect(cand, count, 0)
      ensures Plausible(t, maxDistance) && exists j :: 0 <= j < count && t.id == ToiletId(j)
    {
      var j :| 0 <= j < count && cand(j) == Some(t);
      assert SoundIteration(cand, maxDistance, j);
    }
  }

  /** Sorting the accepted candidates of sound iterations gives plausible
      toilets with distinct ids `toilet-j`, j < count, ascending by
      distance. */
  lemma {:induction false} SortedCollect(cand: nat -> Option<Toilet>, count: int, maxDistance: real)
    requires forall j: nat :: SoundIteration(cand, maxDistance, j)
    ensures var r := SortBy(Collect(cand, count, 0), GeneratorKey);
      && |r| <= (if count > 0 then count else 0)
      && (forall t :: t in r ==> Plausible(t, maxDistance))
      && (forall t :: t in r ==> exists j :: 0 <= j < count && t.id == ToiletId(j))
      && UniqueIds(r)
      && DistancesAscend(r)
  {
    var candidates := Collect(cand, count, 0);
    var r := SortBy(candidates, GeneratorKey);
    SortByMembers(candidates, GeneratorKey);
    CollectSound(cand, count, maxDistance);
    forall j: nat ensures cand(j).Some? ==> cand(j).value.id == ToiletId(j) {
      assert SoundIteration(cand, maxDistance, j);
    }
    CollectUniqueIds(cand, count, 0);
    SortByNoDup(candidates, GeneratorKey, IdOf);
    SortedAscends(candidates);
  }

  /** Sorted by the generator's key, toilets that all have a distance
      ascend by it. */
  lemma {:induction false} SortedAscends(s: seq<Toilet>)
    requires forall t :: t in s ==> t.distance.Some?
    ensures DistancesAscend(SortBy(s, GeneratorKey))
  {
    var r := SortBy(s, GeneratorKey);
    SortByMembers(s, GeneratorKey);
    forall a, b | 0 <= a < b < |r|
      ensures r[a].distance.Some? && r[b].distance.Some? && r[a].distance.value <= r[b].distance.value
    {
      assert r[a] in s && r[b] in s;
      assert KeyLe(GeneratorKey(r[a]), GeneratorKey(r[b]));
    }
  }

  /** At most `count` toilets are generated; each is plausible and has id
      `toilet-j` for some j < count; no two share an id; the list ascends
      by distance. */
  lemma {:induction false} GenerateToiletsNearLocationSound(req: Request, num: Numerics, draws: nat -> CandidateDraws)
    ensures var r := GenerateToiletsNearLocation(req, num, draws);
      && |r| <= (if req.count > 0 then req.count else 0)
      && (forall t :: t in r ==> Plausible(t, req.maxDistance))
      && (forall t :: t in r ==> exists j :: 0 <= j < req.count && t.id == ToiletId(j))
      && UniqueIds(r)
      && DistancesAscend(r)
  {
    IterationsSound(req, num, draws);
    SortedCollect(Iterations(req, num, draws), req.count, req.maxDistance);
  }
}

=== FILE: rules.dfy ===
/** The badge rules that `visitToilet` evaluates after updating the visit
    record (store/toilet-store.ts, visitToilet). Each rule looks its badge
    up with `find` and rewrites only that entry; a missing badge is skipped.
    Speedy Peeper has no rule and is never touched. */
module AchievementRules {
  import opened ToiletTypes
  import opened Seqs
  import opened Seed

  const DayMs: int := 86_400_000
  /** The Marathon window: seven days, in milliseconds. */
  const WeekMs: int := 7 * DayMs

  /** Visited at some time no earlier than a week before `now`. */
  function RecentlyVisited(now: int): (p: Toilet -> bool) {
    (t: Toilet) => t.lastVisited.Some? && t.lastVisited.value >= now - WeekMs
  }

  /** A present, positive visit count. */
  predicate WasVisited(t: Toilet) {
    t.visitCount.Some? && t.visitCount.value > 0
  }

  /** The Golden Throne test on one toilet of the updated list: it carries
      the visited id, has a truthy rating of at least 4.5 and a positive
      visit count. */
  predicate HighRatedVisit(t: Toilet, id: string) {
    t.id == id && Truthy(t.rating) && t.rating.value >= 4.5 && WasVisited(t)
  }

  /** The badge's goal, or `fallback` when the goal is missing or zero. */
  function GoalOr(a: Achievement, fallback: int): (g: int)
    ensures a.goal.Some? && a.goal.value != 0 ==> g == a.goal.value
    ensures a.goal.None? || a.goal.value == 0 ==> g == fallback
  {
    if a.goal.Some? && a.goal.value != 0 then a.goal.value else fallback
  }

  /** Same length and same id at every position. */
  predicate SameIds(a: seq<Achievement>, b: seq<Achievement>) {
    |a| == |b| && forall k :: 0 <= k < |a| ==> a[k].id == b[k].id
  }

  /** `after` differs from `before` only in `unlocked` and `progress`, and
      never re-locks a badge. */
  predicate Advances(before: seq<Achievement>, after: seq<Achievement>) {
    && |after| == |before|
    && (forall k :: 0 <= k < |before| ==>
          after[k] == before[k].(unlocked := after[k].unlocked, progress := after[k].progress))
    && (forall k :: 0 <= k < |before| ==> before[k].unlocked ==> after[k].unlocked)
  }

  lemma AdvancesTransitive(a: seq<Achievement>, b: seq<Achievement>, c: seq<Achievement>)
    requires Advances(a, b) && Advances(b, c)
    ensures Advances(a, c)
  {
    forall k | 0 <= k < |a|
      ensures c[k] == a[k].(unlocked := c[k].unlocked, progress := c[k].progress)
    {
      assert b[k] == a[k].(unlocked := b[k].unlocked, progress := b[k].progress);
      assert c[k] == b[k].(unlocked := c[k].unlocked, progress := c[k].progress);
    }
  }

  /** Lookups by id agree on lists with the same ids. */
  lemma FindSameIds(a: seq<Achievement>, b: seq<Achievement>, id: string)
    requires SameIds(a, b)
    ensures FindAchievement(a, id) == FindAchievement(b, id)
  {
    match FindAchievement(a, id)
    case Some(k) => FindAchievementAt(b, id, k);
    case None =>
  }

  /** Does position k hold the entry one of the four rules rewrites? */
  predicate IsRuleTarget(achs: seq<Achievement>, k: nat) {
    || FindAchievement(achs, FirstPlushId) == Some(k)
    || FindAchievement(achs, MarathonId) == Some(k)
    || FindAchievement(achs, HalfwayThereId) == Some(k)
    || FindAchievement(achs, GoldenThroneId) == Some(k)
  }

  /** First Plush: unlocked with progress 1 on every visit, whatever the id. */
  function FirstPlushRule(achs: seq<Achievement>): (r: seq<Achievement>)
    ensures Advances(achs, r)
    ensures forall k :: 0 <= k < |achs| && FindAchievement(achs, FirstPlushId) != Some(k) ==> r[k] == achs[k]
  {
    match FindAchievement(achs, FirstPlushId)
    case None => achs
    case Some(k) =>
      if achs[k].unlocked then achs
      else achs[k := achs[k].(unlocked := true, progress := Some(1))]
  }

  /** Marathon: progress is the number of toilets visited within the last
      seven days; unlocked once that reaches the goal (3 if unset). */
  function MarathonRule(achs: seq<Achievement>, toilets: seq<Toilet>, now: int): (r: seq<Achievement>)
    ensures Advances(achs, r)
    ensures forall k :: 0 <= k < |achs| && FindAchievement(achs, MarathonId) != Some(k) ==> r[k] == achs[k]
  {
    match FindAchievement(achs, MarathonId)
    case None => achs
    case Some(k) =>
      var p := |Filter(toilets, RecentlyVisited(now))|;
      achs[k := achs[k].(progress := Some(p), unlocked := achs[k].unlocked || p >= GoalOr(achs[k], 3))]
  }

  /** Halfway There: progress is the number of toilets with a positive visit
      count; unlocked once that reaches the goal (50 if unset). */
  function HalfwayRule(achs: seq<Achievement>, toilets: seq<Toilet>): (r: seq<Achievement>)
    ensures Advances(achs, r)
    ensures forall k :: 0 <= k < |achs| && FindAchievement(achs, HalfwayThereId) != Some(k) ==> r[k] == achs[k]
  {
    match FindAchievement(achs, HalfwayThereId)
    case None => achs
    case Some(k) =>
      var p := |Filter(toilets, WasVisited)|;
      achs[k := achs[k].(progress := Some(p), unlocked := achs[k].unlocked || p >= GoalOr(achs[k], 50))]
  }

  /** Golden Throne: while locked, unlocked with progress 1 when the visited
      id names a toilet rated at least 4.5 with a positive visit count. */
  function GoldenThroneRule(achs: seq<Achievement>, toilets: seq<Toilet>, id: string): (r: seq<Achievement>)
    ensures Advances(achs, r)
    ensures forall k :: 0 <= k < |achs| && FindAchievement(achs, GoldenThroneId) != Some(k) ==> r[k] == achs[k]
  {
    match FindAchievement(achs, GoldenThroneId)
    case None => achs
    case Some(k) =>
      if !achs[k].unlocked && exists i :: 0 <= i < |toilets| && HighRatedVisit(toilets[i], id) then
        achs[k := achs[k].(unlocked := true, progress := Some(1))]
      else achs
  }

  /** The four rules in source order, over the already-updated toilet list. */
  function Evaluate(achs: seq<Achievement>, toilets: seq<Toilet>, id: string, now: int): (r: seq<Achievement>)
    ensures SameIds(achs, r)
    ensures Advances(achs, r)
  {
    EvaluateStages(achs, toilets, id, now);
    var a3 := HalfwayRule(MarathonRule(FirstPlushRule(achs), toilets, now), toilets);
    var r := GoldenThroneRule(a3, toilets, id);
    AdvancesTransitive(achs, a3, r);
    assert SameIds(achs, r) by {
      forall k | 0 <= k < |achs| ensures r[k].id == achs[k].id {
        assert r[k] == achs[k].(unlocked := r[k].unlocked, progress := r[k].progress);
      }
    }
    r
  }

  /** The intermediate lists of one evaluation all carry the ids of `achs`,
      so each rule finds its badge where the first rule would. */
  lemma EvaluateStages(achs: seq<Achievement>, toilets: seq<Toilet>, id: string, now: int)
    ensures var a1 := FirstPlushRule(achs);
      var a2 := MarathonRule(a1, toilets, now);
      var a3 := HalfwayRule(a2, toilets);
      && FindAchievement(a1, MarathonId) == FindAchievement(achs, MarathonId)
      && FindAchievement(a2, HalfwayThereId) == FindAchievement(achs, HalfwayThereId)
      && FindAchievement(a3, GoldenThroneId) == FindAchievement(achs, GoldenThroneId)
      && Advances(achs, a1) && Advances(achs, a2) && Advances(achs, a3)
  {
    var a1 := FirstPlushRule(achs);
    var a2 := MarathonRule(a1, toilets, now);
    var a3 := HalfwayRule(a2, toilets);
    AdvancesTransitive(achs, a1, a2);
    AdvancesTransitive(achs, a2, a3);
    assert SameIds(achs, a1) && SameIds(achs, a2) && SameIds(achs, a3);
    FindSameIds(achs, a1, MarathonId);
    FindSameIds(achs, a2, HalfwayThereId);
    FindSameIds(achs, a3, GoldenThroneId);
  }

  /** One evaluation changes only `unlocked` and `progress`, never re-locks
      a badge, and leaves every entry no rule targets as it was. */
  lemma EvaluateFrame(achs: seq<Achievement>, toilets: seq<Toilet>, id: string, now: int)
    ensures var r := Evaluate(achs, toilets, id, now);
      && Advances(achs, r)
      && SameIds(achs, r)
      && (forall k :: 0 <= k < |achs| && !IsRuleTarget(achs, k) ==> r[k] == achs[k])
  {
    EvaluateStages(achs, toilets, id, now);
    var a3 := HalfwayRule(MarathonRule(FirstPlushRule(achs), toilets, now), toilets);
    AdvancesTransitive(achs, a3, Evaluate(achs, toilets, id, now));
  }

  /** First Plush ends unlocked after any visit, even of an unknown id;
      an already unlocked entry is left as it was, otherwise progress is 1. */
  lemma EvaluateFirstPlush(achs: seq<Achievement>, toilets: seq<Toilet>, id: string, now: int, k: nat)
    requires FindAchievement(achs, FirstPlushId) == Some(k)
    ensures var r := Evaluate(achs, toilets, id, now);
      && r[k].unlocked
      && (achs[k].unlocked ==> r[k] == achs[k])
      && (!achs[k].unlocked ==> r[k].progress == Some(1))
  {
    EvaluateStages(achs, toilets, id, now);
  }

  /** Marathon progress is the count of toilets visited in the last seven
      days, and it is unlocked iff it was or that count reaches its goal. */
  lemma EvaluateMarathon(achs: seq<Achievement>, toilets: seq<Toilet>, id: string, now: int, k: nat)
    requires FindAchievement(achs, MarathonId) == Some(k)
    ensures var r := Evaluate(achs, toilets, id, now);
      var p := |Filter(toilets, RecentlyVisited(now))|;
      && r[k].progress == Some(p)
      && (r[k].unlocked <==> achs[k].unlocked || p >= GoalOr(achs[k], 3))
  {
    EvaluateStages(achs, toilets, id, now);
  }

  /** Halfway There progress is the count of toilets with a positive visit
      count, and it is unlocked iff it was or that count reaches its goal. */
  lemma EvaluateHalfway(achs: seq<Achievement>, toilets: seq<Toilet>, id: string, now: int, k: nat)
    requires FindAchievement(achs, HalfwayThereId) == Some(k)
    ensures var r := Evaluate(achs, toilets, id, now);
      var p := |Filter(toilets, WasVisited)|;
      && r[k].progress == Some(p)
      && (r[k].unlocked <==> achs[k].unlocked || p >= GoalOr(achs[k], 50))
  {
    EvaluateStages(achs, toilets, id, now);
  }

  /** Golden Throne: a locked entry becomes unlocked with progress 1 exactly
      when some toilet with the visited id is a high-rated visit; otherwise
      (or when already unlocked) it is left as it was. */
  lemma EvaluateGoldenThrone(achs: seq<Achievement>, toilets: seq<Toilet>, id: string, now: int, k: nat)
    requires FindAchievement(achs, GoldenThroneId) == Some(k)
    ensures var r := Evaluate(achs, toilets, id, now);
      && (achs[k].unlocked ==> r[k] == achs[k])
      && (!achs[k].unlocked ==>
            && (r[k].unlocked <==> exists i :: 0 <= i < |toilets| && HighRatedVisit(toilets[i], id))
            && (r[k].unlocked ==> r[k].progress == Some(1))
            && (!r[k].unlocked ==> r[k] == achs[k]))
  {
    EvaluateStages(achs, toilets, id, now);
  }
}

=== FILE: seed.dfy ===
/** The seed achievement table (mocks/toilets.ts), which the store starts
    from and which `resetAchievements` restores. */
module Seed {
  import opened ToiletTypes

  const FirstPlushId: string := "first_plush"
  const SpeedyPeeperId: string := "speedy_peeper"
  const MarathonId: string := "marathon"
  const HalfwayThereId: string := "halfway_there"
  const GoldenThroneId: string := "golden_throne"

  function Locked(id: string, title: string, description: string, icon: string, goal: int): (a: Achievement) {
    Achievement(id, title, description, icon, false, Some(0), Some(goal))
  }

  /** The seed table: five distinct badges, all locked at progress 0, each
      with a positive goal. */
  function SeedAchievements(): (r: seq<Achievement>)
    ensures |r| == 5
    ensures forall i, j :: 0 <= i < j < |r| ==> r[i].id != r[j].id
    ensures forall i :: 0 <= i < |r| ==> !r[i].unlocked && r[i].progress == Some(0)
    ensures forall i :: 0 <= i < |r| ==> r[i].goal.Some? && r[i].goal.value > 0
  {
    [ Locked(FirstPlushId, "First Plush", "Visit your first toilet", "smile", 1),
      Locked(SpeedyPeeperId, "Speedy Peeper", "Get to the toilet in under 3 minutes", "zap", 1),
      Locked(MarathonId, "Marathon", "Use 3 toilets in 7 days", "flag", 3),
      Locked(HalfwayThereId, "Halfway There", "Find 50 toilets", "lock", 50),
      Locked(GoldenThroneId, "Golden Throne", "Visit a 5-star rated toilet", "crown", 1) ]
  }

  /** Looked up by id, the badges the store evaluates have goals 1 (First
      Plush), 3 (Marathon), 50 (Halfway There) and 1 (Golden Throne);
      Speedy Peeper's is 1. */
  lemma SeedGoals()
    ensures GoalOf(SeedAchievements(), FirstPlushId) == Some(1)
    ensures GoalOf(SeedAchievements(), SpeedyPeeperId) == Some(1)
    ensures GoalOf(SeedAchievements(), MarathonId) == Some(3)
    ensures GoalOf(SeedAchievements(), HalfwayThereId) == Some(50)
    ensures GoalOf(SeedAchievements(), GoldenThroneId) == Some(1)
  {
    var r := SeedAchievements();
    FindAchievementAt(r, FirstPlushId, 0);
    FindAchievementAt(r, SpeedyPeeperId, 1);
    FindAchievementAt(r, MarathonId, 2);
    FindAchievementAt(r, HalfwayThereId, 3);
    FindAchievementAt(r, GoldenThroneId, 4);
  }

  /** The goal of the first achievement carrying `id`, if any. */
  function GoalOf(achs: seq<Achievement>, id: string): (r: Option<int>) {
    match FindAchievement(achs, id)
    case None => None
    case Some(k) => achs[k].goal
  }
}

=== FILE: seqs.dfy ===
/** Sequence utilities shared by the store and the generator: an
    order-keeping filter (Array.prototype.filter), duplicate-freedom under a
    projection, and the stable sort that Array.prototype.sort performs with a
    numeric comparator that subtracts the two elements' keys. */
module Seqs {

  /** Elements kept by `p`, in their original order. */
  function Filter<T(!new)>(s: seq<T>, p: T -> bool): (r: seq<T>)
    ensures |r| <= |s|
    ensures forall x :: x in r <==> x in s && p(x)
  {
    if s == [] then []
    else (if p(s[0]) then [s[0]] else []) + Filter(s[1..], p)
  }

  /** Filtering distributes over concatenation, so it keeps relative order. */
  lemma {:induction false} FilterConcat<T(!new)>(a: seq<T>, b: seq<T>, p: T -> bool)
    ensures Filter(a + b, p) == Filter(a, p) + Filter(b, p)
    decreases |a|
  {
    if a == [] {
      assert a + b == b;
    } else {
      assert (a + b)[1..] == a[1..] + b;
      FilterConcat(a[1..], b, p);
    }
  }

  /** Filtering a sequence with a given first element. */
  lemma FilterCons<T(!new)>(x: T, s: seq<T>, p: T -> bool)
    ensures Filter([x] + s, p) == (if p(x) then [x] else []) + Filter(s, p)
  {
    assert ([x] + s)[1..] == s;
  }

  /** A filter that keeps everything is the identity. */
  lemma {:induction false} FilterAll<T(!new)>(s: seq<T>, p: T -> bool)
    requires forall x :: x in s ==> p(x)
    ensures Filter(s, p) == s
    decreases |s|
  {
    if s != [] {
      assert forall x :: x in s[1..] ==> x in s;
      FilterAll(s[1..], p);
    }
  }

  /** Filtering twice by the same predicate is filtering once. */
  lemma FilterIdempotent<T(!new)>(s: seq<T>, p: T -> bool)
    ensures Filter(Filter(s, p), p) == Filter(s, p)
  {
    FilterAll(Filter(s, p), p);
  }

  /** No two positions of `s` share the same projection `f`. */
  ghost predicate NoDupBy<T(!new), K>(s: seq<T>, f: T -> K) {
    forall i, j :: 0 <= i < j < |s| ==> f(s[i]) != f(s[j])
  }

  /** Filtering never introduces a duplicate. */
  lemma {:induction false} FilterNoDup<T(!new), K>(s: seq<T>, p: T -> bool, f: T -> K)
    requires NoDupBy(s, f)
    ensures NoDupBy(Filter(s, p), f)
    decreases |s|
  {
    if s != [] {
      FilterNoDup(s[1..], p, f);
      var rest := Filter(s[1..], p);
      forall y | y in rest
        ensures f(y) != f(s[0])
      {
        var k :| 0 <= k < |s[1..]| && s[1..][k] == y;
        assert s[k + 1] == y;
      }
    }
  }

  /** A sort key: a distance, or +Infinity. */
  datatype SortKey = Finite(value: real) | Infinite

  /** The order a subtracting comparator induces (the difference of two
      infinite keys is NaN, which the sort reads as "equal"). */
  predicate KeyLe(a: SortKey, b: SortKey) {
    b.Infinite? || (a.Finite? && a.value <= b.value)
  }

  predicate SortedBy<T(!new)>(s: seq<T>, key: T -> SortKey) {
    forall i, j :: 0 <= i < j < |s| ==> KeyLe(key(s[i]), key(s[j]))
  }

  /** Inserts x before the first element whose key is not below x's. */
  function InsertBy<T(!new)>(x: T, s: seq<T>, key: T -> SortKey): (r: seq<T>)
    ensures |r| == |s| + 1
    ensures multiset(r) == multiset(s) + multiset{x}
  {
    if s == [] then [x]
    else if KeyLe(key(x), key(s[0])) then [x] + s
    else
      assert s == [s[0]] + s[1..];
      [s[0]] + InsertBy(x, s[1..], key)
  }

  lemma {:induction false} InsertBySorted<T(!new)>(x: T, s: seq<T>, key: T -> SortKey)
    requires SortedBy(s, key)
    ensures SortedBy(InsertBy(x, s, key), key)
    decreases |s|
  {
    if s != [] && !KeyLe(key(x), key(s[0])) {
      var rest := InsertBy(x, s[1..], key);
      InsertBySorted(x, s[1..], key);
      forall y | y in rest
        ensures KeyLe(key(s[0]), key(y))
      {
        assert y in multiset(rest);
        if y != x {
          var k :| 0 <= k < |s[1..]| && s[1..][k] == y;
          assert s[k + 1] == y;
        }
      }
      var r := [s[0]] + rest;
      forall i, j | 0 <= i < j < |r|
        ensures KeyLe(key(r[i]), key(r[j]))
      {
        if i > 0 {
          assert r[i] == rest[i - 1] && r[j] == rest[j - 1];
        } else {
          assert r[j] in rest;
        }
      }
    }
  }

  /** Stable insertion sort: a permutation of `s`, ascending by `key`. */
  function SortBy<T(!new)>(s: seq<T>, key: T -> SortKey): (r: seq<T>)
    ensures |r| == |s|
    ensures multiset(r) == multiset(s)
    ensures SortedBy(r, key)
  {
    if s == [] then []
    else
      assert s == [s[0]] + s[1..];
      var sorted := SortBy(s[1..], key);
      InsertBySorted(s[0], sorted, key);
      InsertBy(s[0], sorted, key)
  }

  lemma SortByMembers<T(!new)>(s: seq<T>, key: T -> SortKey)
    ensures forall x :: x in SortBy(s, key) <==> x in s
  {
    var r := SortBy(s, key);
    forall x ensures x in r <==> x in s {
      assert x in r <==> x in multiset(r);
      assert x in s <==> x in multiset(s);
    }
  }

  /** The elements carrying one given key. */
  function HasKey<T(!new)>(key: T -> SortKey, k: SortKey): T -> bool {
    x => key(x) == k
  }

  lemma {:induction false} InsertByStable<T(!new)>(x: T, s: seq<T>, key: T -> SortKey, k: SortKey)
    ensures Filter(InsertBy(x, s, key), HasKey(key, k))
         == (if key(x) == k then [x] else []) + Filter(s, HasKey(key, k))
    decreases |s|
  {
    if s == [] || KeyLe(key(x), key(s[0])) {
      assert InsertBy(x, s, key) == [x] + s;
      FilterCons(x, s, HasKey(key, k));
    } else {
      InsertByStable(x, s[1..], key, k);
      InsertPastHead(x, s, key, k);
    }
  }

  /** The step of InsertByStable where x moves past the head: the head
      and x cannot both carry key k, since x's key is above the head's. */
  lemma InsertPastHead<T(!new)>(x: T, s: seq<T>, key: T -> SortKey, k: SortKey)
    requires s != [] && !KeyLe(key(x), key(s[0]))
    requires Filter(InsertBy(x, s[1..], key), HasKey(key, k))
          == (if key(x) == k then [x] else []) + Filter(s[1..], HasKey(key, k))
    ensures Filter(InsertBy(x, s, key), HasKey(key, k))
         == (if key(x) == k then [x] else []) + Filter(s, HasKey(key, k))
  {
    var p := HasKey(key, k);
    var rest := InsertBy(x, s[1..], key);
    assert InsertBy(x, s, key) == [s[0]] + rest;
    FilterCons(s[0], rest, p);
    SwapOptional(s[0], x, key(s[0]) == k, key(x) == k, Filter(s[1..], p));
  }

  /** Two optional single elements, at most one of them present, can be
      put in front of a list in either order. */
  lemma SwapOptional<T>(y: T, x: T, py: bool, px: bool, a: seq<T>)
    requires !(py && px)
    ensures (if py then [y] else []) + ((if px then [x] else []) + a)
         == (if px then [x] else []) + ((if py then [y] else []) + a)
  {
    if py {
      assert [] + a == a;
    } else if px {
      assert [] + ([x] + a) == [x] + a;
    }
  }

  /** Stability: among elements with equal keys, the sort keeps their
      original relative order. */
  lemma {:induction false} SortByStable<T(!new)>(s: seq<T>, key: T -> SortKey, k: SortKey)
    ensures Filter(SortBy(s, key), HasKey(key, k)) == Filter(s, HasKey(key, k))
    decreases |s|
  {
    if s != [] {
      InsertByStable(s[0], SortBy(s[1..], key), key, k);
      SortByStable(s[1..], key, k);
    }
  }

  lemma {:induction false} InsertByNoDup<T(!new), K>(x: T, s: seq<T>, key: T -> SortKey, f: T -> K)
    requires NoDupBy(s, f)
    requires forall y :: y in s ==> f(y) != f(x)
    ensures NoDupBy(InsertBy(x, s, key), f)
    decreases |s|
  {
    if s != [] && !KeyLe(key(x), key(s[0])) {
      assert forall y :: y in s[1..] ==> y in s;
      InsertByNoDup(x, s[1..], key, f);
      var rest := InsertBy(x, s[1..], key);
      forall y | y in rest
        ensures f(y) != f(s[0])
      {
        assert y in multiset(rest);
        if y != x {
          var k :| 0 <= k < |s[1..]| && s[1..][k] == y;
          assert s[k + 1] == y;
        }
      }
    }
  }

  /** Sorting never introduces a duplicate. */
  lemma {:induction false} SortByNoDup<T(!new), K>(s: seq<T>, key: T -> SortKey, f: T -> K)
    requires NoDupBy(s, f)
    ensures NoDupBy(SortBy(s, key), f)
    decreases |s|
  {
    if s != [] {
      SortByNoDup(s[1..], key, f);
      var sorted := SortBy(s[1..], key);
      forall y | y in sorted
        ensures f(y) != f(s[0])
      {
        assert y in multiset(sorted);
        var k :| 0 <= k < |s[1..]| && s[1..][k] == y;
        assert s[k + 1] == y;
      }
      InsertByNoDup(s[0], sorted, key, f);
    }
  }
}

=== FILE: store.dfy ===
/** The app's state store (store/toilet-store.ts): one immutable `State`
    record and one pure function per action. `now`, the candidate draws and
    the numeric routines are parameters. */
module ToiletStore {
  import opened ToiletTypes
  import opened Seqs
  import opened Seed
  import opened AchievementRules
  import opened Location

  datatype Appearance = System | Light | Dark

  datatype Coordinate = Coordinate(latitude: real, longitude: real)

  datatype State = State(
    toilets: seq<Toilet>,
    savedToilets: seq<Toilet>,
    achievements: seq<Achievement>,
    currentLocation: Option<Coordinate>,
    selectedToilet: Option<Toilet>,
    isLoading: bool,
    error: Option<string>,
    unitSystem: UnitSystem,
    notificationsEnabled: bool,
    appearance: Appearance)

  /** What every reachable state satisfies: ids are unique in both lists
      and the badges are the seed's, position by position. */
  ghost predicate Valid(st: State) {
    && UniqueIds(st.toilets)
    && UniqueIds(st.savedToilets)
    && SameIds(SeedAchievements(), st.achievements)
  }

  /** The store as created: empty lists, seed badges, Miles. */
  function InitialState(): (st: State)
    ensures Valid(st)
    ensures |st.achievements| == 5 && forall k :: 0 <= k < 5 ==> !st.achievements[k].unlocked
  {
    State([], [], SeedAchievements(), None, None, false, None, Miles, true, System)
  }

  // ---------------------------------------------------------------- saving

  /** saveToilet: appends the toilet unless its id is already saved. */
  function SaveToilet(st: State, toilet: Toilet): (r: State)
    ensures r.(savedToilets := st.savedToilets) == st
    ensures HasId(r.savedToilets, toilet.id)
    ensures HasId(st.savedToilets, toilet.id) ==> r == st
    ensures !HasId(st.savedToilets, toilet.id) ==>
      |r.savedToilets| == |st.savedToilets| + 1 && r.savedToilets[|st.savedToilets|] == toilet
    ensures r.savedToilets[..|st.savedToilets|] == st.savedToilets
    ensures UniqueIds(st.savedToilets) ==> UniqueIds(r.savedToilets)
  {
    if HasId(st.savedToilets, toilet.id) then st
    else
      var saved := st.savedToilets + [toilet];
      assert saved[|st.savedToilets|] == toilet;
      assert UniqueIds(st.savedToilets) ==> UniqueIds(saved) by {
        if UniqueIds(st.savedToilets) {
          forall i, j | 0 <= i < j < |saved| ensures IdOf(saved[i]) != IdOf(saved[j]) {
            if j == |st.savedToilets| {
              assert saved[i] == st.savedToilets[i];
            }
          }
        }
      }
      st.(savedToilets := saved)
  }

  /** Saving the same toilet twice is saving it once. */
  lemma SaveToiletIdempotent(st: State, toilet: Toilet)
    ensures SaveToilet(SaveToilet(st, toilet), toilet) == SaveToilet(st, toilet)
  {
  }

  // -------------------------------------------------------------- removing

  /** The filter `t => t.id !== id`. */
  function NotId(id: string): (p: Toilet -> bool) {
    (t: Toilet) => t.id != id
  }

  /** removeSavedToilet: drops every saved entry with that id. */
  function RemoveSavedToilet(st: State, id: string): (r: State)
    ensures r.(savedToilets := st.savedToilets) == st
    ensures !HasId(r.savedToilets, id)
    ensures forall t :: t in r.savedToilets <==> t in st.savedToilets && t.id != id
    ensures !HasId(st.savedToilets, id) ==> r == st
    ensures UniqueIds(st.savedToilets) ==> UniqueIds(r.savedToilets)
  {
    var saved := Filter(st.savedToilets, NotId(id));
    assert !HasId(st.savedToilets, id) ==> saved == st.savedToilets by {
      if !HasId(st.savedToilets, id) {
        FilterAll(st.savedToilets, NotId(id));
      }
    }
    assert UniqueIds(st.savedToilets) ==> UniqueIds(saved) by {
      if UniqueIds(st.savedToilets) {
        FilterNoDup(st.savedToilets, NotId(id), IdOf);
      }
    }
    assert forall i :: 0 <= i < |saved| ==> saved[i].id != id by {
      forall i | 0 <= i < |saved| ensures saved[i].id != id {
        assert saved[i] in saved;
      }
    }
    st.(savedToilets := saved)
  }

  /** Removal keeps the survivors in order: removing from a concatenation
      is concatenating the removals. */
  lemma RemoveKeepsOrder(a: seq<Toilet>, b: seq<Toilet>, st: State, id: string)
    requires st.savedToilets == a + b
    ensures RemoveSavedToilet(st, id).savedToilets
         == Filter(a, NotId(id)) + Filter(b, NotId(id))
  {
    FilterConcat(a, b, NotId(id));
  }

  /** Removing twice is removing once. */
  lemma RemoveSavedToiletIdempotent(st: State, id: string)
    ensures RemoveSavedToilet(RemoveSavedToilet(st, id), id) == RemoveSavedToilet(st, id)
  {
    FilterIdempotent(st.savedToilets, NotId(id));
  }

  /** Removing a toilet just saved under a fresh id restores the state. */
  lemma RemoveUndoesSave(st: State, toilet: Toilet)
    requires !HasId(st.savedToilets, toilet.id)
    ensures RemoveSavedToilet(SaveToilet(st, toilet), toilet.id) == st
  {
    var saved := st.savedToilets + [toilet];
    FilterConcat(st.savedToilets, [toilet], NotId(toilet.id));
    FilterAll(st.savedToilets, NotId(toilet.id));
    assert Filter([toilet], NotId(toilet.id)) == [];
  }

  // -------------------------------------------------------------- visiting

  /** One toilet after a visit: one more visit (an absent count counts as
      0) and last visited now. */
  function VisitOne(t: Toilet, now: int): (r: Toilet) {
    t.(visitCount := Some(OrZero(t.visitCount) + 1), lastVisited := Some(now))
  }

  /** The `map` of visitToilet over the toilet list. */
  function VisitToilets(s: seq<Toilet>, id: string, now: int): (r: seq<Toilet>)
    ensures |r| == |s|
    ensures forall k :: 0 <= k < |s| ==> r[k].id == s[k].id
    ensures forall k :: 0 <= k < |s| && s[k].id != id ==> r[k] == s[k]
    ensures forall k :: 0 <= k < |s| && s[k].id == id ==>
      && r[k].visitCount == Some(OrZero(s[k].visitCount) + 1)
      && r[k].lastVisited == Some(now)
      && r[k].(visitCount := s[k].visitCount, lastVisited := s[k].lastVisited) == s[k]
  {
    seq(|s|, k requires 0 <= k < |s| => if s[k].id == id then VisitOne(s[k], now) else s[k])
  }

  /** visitToilet: the visit record, then the badge rules over the updated
      list, committed together. The id is not checked first. */
  function VisitToilet(st: State, id: string, now: int): (r: State)
    ensures r.(toilets := st.toilets, achievements := st.achievements) == st
    ensures UniqueIds(st.toilets) ==> UniqueIds(r.toilets)
    ensures Advances(st.achievements, r.achievements)
    ensures SameIds(st.achievements, r.achievements)
  {
    var toilets := VisitToilets(st.toilets, id, now);
    var achievements := Evaluate(st.achievements, toilets, id, now);
    EvaluateFrame(st.achievements, toilets, id, now);
    st.(toilets := toilets, achievements := achievements)
  }

  /** Visiting an id no toilet carries leaves the list alone, yet First
      Plush still ends unlocked. */
  lemma VisitUnknownId(st: State, id: string, now: int, k: nat)
    requires !HasId(st.toilets, id)
    requires FindAchievement(st.achievements, FirstPlushId) == Some(k)
    ensures VisitToilet(st, id, now).toilets == st.toilets
    ensures VisitToilet(st, id, now).achievements[k].unlocked
  {
    EvaluateFirstPlush(st.achievements, VisitToilets(st.toilets, id, now), id, now, k);
  }

  /** Toilets carrying id for which `p` was false. */
  function NewlyMatching(id: string, p: Toilet -> bool): Toilet -> bool {
    (t: Toilet) => t.id == id && !p(t)
  }

  /** When every visited toilet satisfies `p` after its visit, the number
      of toilets satisfying `p` grows by exactly the visited ones that did
      not satisfy it before. */
  lemma {:induction false} VisitCountGrowth(s: seq<Toilet>, id: string, now: int, p: Toilet -> bool)
    requires forall t :: t in s && t.id == id ==> p(VisitOne(t, now))
    ensures |Filter(VisitToilets(s, id, now), p)| == |Filter(s, p)| + |Filter(s, NewlyMatching(id, p))|
    decreases |s|
  {
    if s != [] {
      VisitToiletsTail(s, id, now);
      assert forall t :: t in s[1..] ==> t in s;
      VisitCountGrowth(s[1..], id, now, p);
    }
  }

  /** The visit map on a non-empty list: its head, then the map of the tail. */
  lemma VisitToiletsTail(s: seq<Toilet>, id: string, now: int)
    requires s != []
    ensures VisitToilets(s, id, now)[1..] == VisitToilets(s[1..], id, now)
  {
  }

  /** Visit counts are never negative. */
  predicate CountsNonNegative(s: seq<Toilet>) {
    forall k :: 0 <= k < |s| ==> OrZero(s[k].visitCount) >= 0
  }

  /** After a visit, the toilets with a positive count are those that had
      one plus the visited ones that had none. */
  lemma VisitedCountAfterVisit(s: seq<Toilet>, id: string, now: int)
    requires CountsNonNegative(s)
    ensures |Filter(VisitToilets(s, id, now), WasVisited)|
         == |Filter(s, WasVisited)| + |Filter(s, NewlyMatching(id, WasVisited))|
  {
    forall t | t in s && t.id == id ensures WasVisited(VisitOne(t, now)) {
      var i :| 0 <= i < |s| && s[i] == t;
    }
    VisitCountGrowth(s, id, now, WasVisited);
  }

  /** Halfway There after a visit: its progress is the number of toilets
      visited before plus the visited ones never visited before. */
  lemma VisitHalfwayProgress(st: State, id: string, now: int, k: nat)
    requires CountsNonNegative(st.toilets)
    requires FindAchievement(st.achievements, HalfwayThereId) == Some(k)
    ensures VisitToilet(st, id, now).achievements[k].progress
         == Some(|Filter(st.toilets, WasVisited)| + |Filter(st.toilets, NewlyMatching(id, WasVisited))|)
  {
    EvaluateHalfway(st.achievements, VisitToilets(st.toilets, id, now), id, now, k);
    VisitedCountAfterVisit(st.toilets, id, now);
  }

  /** After a visit, the toilets visited in the last seven days are those
      that were plus the visited ones that were not. */
  lemma RecentCountAfterVisit(s: seq<Toilet>, id: string, now: int)
    ensures |Filter(VisitToilets(s, id, now), RecentlyVisited(now))|
         == |Filter(s, RecentlyVisited(now))| + |Filter(s, NewlyMatching(id, RecentlyVisited(now)))|
  {
    var recent := RecentlyVisited(now);
    forall t | t in s && t.id == id ensures recent(VisitOne(t, now)) {
      assert VisitOne(t, now).lastVisited == Some(now);
    }
    VisitCountGrowth(s, id, now, recent);
  }

  /** Marathon after a visit: its progress is the number of toilets visited
      in the last seven days before, plus the visited ones that were not. */
  lemma VisitMarathonProgress(st: State, id: string, now: int, k: nat)
    requires FindAchievement(st.achievements, MarathonId) == Some(k)
    ensures VisitToilet(st, id, now).achievements[k].progress
         == Some(|Filter(st.toilets, RecentlyVisited(now))|
                 + |Filter(st.toilets, NewlyMatching(id, RecentlyVisited(now)))|)
  {
    EvaluateMarathon(st.achievements, VisitToilets(st.toilets, id, now), id, now, k);
    RecentCountAfterVisit(st.toilets, id, now);
  }

  /** Visiting a toilet rated 4.5 or more unlocks Golden Throne with
      progress 1 (or leaves it unlocked). */
  lemma VisitHighRatedUnlocksGoldenThrone(st: State, id: string, now: int, i: nat, k: nat)
    requires i < |st.toilets| && st.toilets[i].id == id
    requires Truthy(st.toilets[i].rating) && st.toilets[i].rating.value >= 4.5
    requires OrZero(st.toilets[i].visitCount) >= 0
    requires FindAchievement(st.achievements, GoldenThroneId) == Some(k)
    ensures VisitToilet(st, id, now).achievements[k].unlocked
    ensures !st.achievements[k].unlocked ==> VisitToilet(st, id, now).achievements[k].progress == Some(1)
  {
    var toilets := VisitToilets(st.toilets, id, now);
    assert HighRatedVisit(toilets[i], id);
    EvaluateGoldenThrone(st.achievements, toilets, id, now, k);
  }

  // ---------------------------------------------------------- unit system

  /** The conversion factor: 1 mile is 1.60934 km. */
  const KmPerMile: real := 1.60934

  /** A distance in the other unit: multiplied by the factor towards
      kilometres, divided by it towards miles, then rounded to two decimals. */
  function ConvertDistance(d: real, to: UnitSystem, num: Numerics): (r: real) {
    num.round2(if to == Kilometers then d * KmPerMile else d / KmPerMile)
  }

  /** Rewrites a truthy distance into the new unit; other toilets are kept. */
  function ConvertToilet(t: Toilet, to: UnitSystem, num: Numerics): (r: Toilet) {
    if Truthy(t.distance) then t.(distance := Some(ConvertDistance(t.distance.value, to, num))) else t
  }

  /** setUnitSystem: records the system; on a change, rewrites the
      distances of `toilets` (not of `savedToilets`). */
  function SetUnitSystem(st: State, system: UnitSystem, num: Numerics): (r: State)
    ensures r.(toilets := st.toilets, unitSystem := st.unitSystem) == st
    ensures r.unitSystem == system
    ensures system == st.unitSystem ==> r == st
    ensures |r.toilets| == |st.toilets|
    ensures forall k :: 0 <= k < |st.toilets| ==>
      r.toilets[k] == st.toilets[k].(distance := r.toilets[k].distance)
    ensures forall k :: 0 <= k < |st.toilets| && !Truthy(st.toilets[k].distance) ==>
      r.toilets[k] == st.toilets[k]
    ensures system != st.unitSystem ==> forall k :: 0 <= k < |st.toilets| && Truthy(st.toilets[k].distance) ==>
      r.toilets[k].distance == Some(ConvertDistance(st.toilets[k].distance.value, system, num))
    ensures UniqueIds(st.toilets) ==> UniqueIds(r.toilets)
  {
    if system != st.unitSystem then
      var toilets := seq(|st.toilets|, k requires 0 <= k < |st.toilets| => ConvertToilet(st.toilets[k], system, num));
      st.(unitSystem := system, toilets := toilets)
    else st.(unitSystem := system)
  }

  /** Rounding to two decimals moves a value by at most half a cent. */
  ghost predicate RoundsToCents(num: Numerics) {
    forall x: real :: -0.005 <= num.round2(x) - x <= 0.005
  }

  /** With cent rounding, Miles -> Kilometers -> Miles moves a distance by
      less than 0.01 (a distance that rounds to 0 km stays 0). */
  lemma {:induction false} MilesRoundTrip(d: real, num: Numerics)
    requires RoundsToCents(num)
    ensures var km := ConvertDistance(d, Kilometers, num);
      var back := if km != 0.0 then ConvertDistance(km, Miles, num) else km;
      -0.01 < back - d < 0.01
  {
    var km := ConvertDistance(d, Kilometers, num);
    assert -0.005 <= km - d * KmPerMile <= 0.005;
    if km != 0.0 {
      var back := ConvertDistance(km, Miles, num);
      assert -0.005 <= back - km / KmPerMile <= 0.005;
      assert km / KmPerMile - d == (km - d * KmPerMile) / KmPerMile;
    }
  }

  /** On the store: switching Miles -> Kilometers -> Miles keeps every
      distance within 0.01 of where it was. */
  lemma UnitSwitchRoundTrip(st: State, num: Numerics)
    requires st.unitSystem == Miles
    requires RoundsToCents(num)
    ensures var r := SetUnitSystem(SetUnitSystem(st, Kilometers, num), Miles, num);
      && r.unitSystem == Miles
      && |r.toilets| == |st.toilets|
      && forall k :: 0 <= k < |st.toilets| && Truthy(st.toilets[k].distance) ==>
           r.toilets[k].distance.Some? && -0.01 < r.toilets[k].distance.value - st.toilets[k].distance.value < 0.01
  {
    var mid := SetUnitSystem(st, Kilometers, num);
    var r := SetUnitSystem(mid, Miles, num);
    forall k | 0 <= k < |st.toilets| && Truthy(st.toilets[k].distance)
      ensures r.toilets[k].distance.Some? && -0.01 < r.toilets[k].distance.value - st.toilets[k].distance.value < 0.01
    {
      MilesRoundTrip(st.toilets[k].distance.value, num);
    }
  }

  // -------------------------------------------------------------- fetching

  /** The candidate request of fetchToiletsNearby: 15 toilets within 10. */
  const FetchCount: int := 15
  const FetchRadius: real := 10.0

  /** A saved toilet with its distance recomputed from the new origin in
      the store's current unit. */
  function RefreshDistance(t: Toilet, latitude: real, longitude: real, unit: UnitSystem, num: Numerics): (r: Toilet) {
    t.(distance := Some(num.distance(latitude, longitude, t.latitude, t.longitude, unit == Kilometers) as real))
  }

  /** The `map` over the saved toilets: the same toilets in the same order,
      each keeping every field but its distance, which is now present,
      non-negative and measured from the new origin in the given unit. */
  function RefreshSaved(saved: seq<Toilet>, latitude: real, longitude: real, unit: UnitSystem, num: Numerics): (r: seq<Toilet>)
    ensures |r| == |saved|
    ensures forall k :: 0 <= k < |saved| ==> r[k].(distance := saved[k].distance) == saved[k]
    ensures forall k :: 0 <= k < |saved| ==> r[k].distance.Some? && r[k].distance.value >= 0.0
    ensures forall k :: 0 <= k < |saved| ==>
      r[k].distance.value == num.distance(latitude, longitude, saved[k].latitude, saved[k].longitude, unit == Kilometers) as real
  {
    seq(|saved|, k requires 0 <= k < |saved| => RefreshDistance(saved[k], latitude, longitude, unit, num))
  }

  /** The `forEach` that pushes each saved toilet whose id is not yet in
      the combined list. */
  function MergeSaved(combined: seq<Toilet>, saved: seq<Toilet>): (r: seq<Toilet>)
    ensures |combined| <= |r| <= |combined| + |saved|
    ensures r[..|combined|] == combined
    ensures forall t :: t in saved ==> HasId(r, t.id)
    ensures forall t :: t in r ==> t in combined || t in saved
    ensures UniqueIds(combined) ==> UniqueIds(r)
    decreases |saved|
  {
    if saved == [] then combined
    else
      var next := if HasId(combined, saved[0].id) then combined else combined + [saved[0]];
      assert UniqueIds(combined) ==> UniqueIds(next) by {
        if UniqueIds(combined) && !HasId(combined, saved[0].id) {
          forall i, j | 0 <= i < j < |next| ensures IdOf(next[i]) != IdOf(next[j]) {
            if j == |combined| {
              assert next[i] == combined[i];
            }
          }
        }
      }
      assert HasId(next, saved[0].id) by {
        if !HasId(combined, saved[0].id) {
          assert next[|combined|] == saved[0];
        }
      }
      var r := MergeSaved(next, saved[1..]);
      assert r[..|next|] == next;
      assert forall t :: t in saved ==> t == saved[0] || t in saved[1..];
      assert HasId(r, saved[0].id) by {
        var i :| 0 <= i < |next| && next[i].id == saved[0].id;
        assert r[i] == next[i];
      }
      assert r[..|combined|] == combined by {
        assert next[..|combined|] == combined;
      }
      r
  }

  /** The store's sort key: a missing or zero distance stands for Infinity,
      so such toilets sort last. */
  function StoreKey(t: Toilet): (r: SortKey) {
    if Truthy(t.distance) then Finite(t.distance.value) else Infinite
  }

  /** fetchToiletsNearby (the path without a thrown error). */
  function FetchToiletsNearby(st: State, latitude: real, longitude: real, num: Numerics,
                              draws: nat -> CandidateDraws): (r: State)
  {
    var generated := GenerateToiletsNearLocation(Request(latitude, longitude, FetchCount, FetchRadius), num, draws);
    var saved := RefreshSaved(st.savedToilets, latitude, longitude, st.unitSystem, num);
    st.(toilets := SortBy(MergeSaved(generated, saved), StoreKey),
        savedToilets := saved,
        isLoading := false,
        error := None)
  }

  /** Ascending by distance, with missing or zero distances at the end. */
  predicate DistanceOrdered(s: seq<Toilet>) {
    forall a, b :: 0 <= a < b < |s| && Truthy(s[b].distance) ==>
      Truthy(s[a].distance) && s[a].distance.value <= s[b].distance.value
  }

  /** After a fetch the saved list keeps its entries and order with only
      distances recomputed (in the current unit), loading is over without
      error, and nothing else of the state changes. */
  lemma FetchToiletsNearbySaved(st: State, latitude: real, longitude: real, num: Numerics,
                                draws: nat -> CandidateDraws)
    ensures var r := FetchToiletsNearby(st, latitude, longitude, num, draws);
      && r.(toilets := st.toilets, savedToilets := st.savedToilets, isLoading := st.isLoading, error := st.error) == st
      && !r.isLoading && r.error.None?
      && |r.savedToilets| == |st.savedToilets|
      && (forall k :: 0 <= k < |st.savedToilets| ==>
            && r.savedToilets[k] == st.savedToilets[k].(distance := r.savedToilets[k].distance)
            && r.savedToilets[k].distance
               == Some(num.distance(latitude, longitude, st.savedToilets[k].latitude, st.savedToilets[k].longitude,
                                    st.unitSystem == Kilometers) as real))
  {
  }

  /** Merging saved toilets into a list with unique ids and sorting the
      result: every saved id is present, ids stay unique, each entry comes
      from one of the two lists, and the order is by distance. */
  lemma {:induction false} SortedMerge(generated: seq<Toilet>, saved: seq<Toilet>)
    requires UniqueIds(generated)
    ensures var r := SortBy(MergeSaved(generated, saved), StoreKey);
      && (forall t :: t in saved ==> HasId(r, t.id))
      && UniqueIds(r)
      && |r| <= |generated| + |saved|
      && (forall t :: t in r ==> t in generated || t in saved)
  {
    var merged := MergeSaved(generated, saved);
    var r := SortBy(merged, StoreKey);
    SortByMembers(merged, StoreKey);
    SortByNoDup(merged, StoreKey, IdOf);
    forall t | t in saved ensures HasId(r, t.id) {
      var i :| 0 <= i < |merged| && merged[i].id == t.id;
      assert merged[i] in r;
    }
  }

  /** Sorting by the store's key puts the list in distance order. */
  lemma {:induction false} StoreSortOrdered(s: seq<Toilet>)
    ensures DistanceOrdered(SortBy(s, StoreKey))
  {
    var r := SortBy(s, StoreKey);
    forall a, b | 0 <= a < b < |r| && Truthy(r[b].distance)
      ensures Truthy(r[a].distance) && r[a].distance.value <= r[b].distance.value
    {
      assert KeyLe(StoreKey(r[a]), StoreKey(r[b]));
    }
  }

  /** The three lists of one fetch: generated candidates, refreshed saved
      toilets, and the merged and sorted result. */
  lemma FetchParts(st: State, latitude: real, longitude: real, num: Numerics, draws: nat -> CandidateDraws)
    ensures var generated := GenerateToiletsNearLocation(Request(latitude, longitude, FetchCount, FetchRadius), num, draws);
      var saved := RefreshSaved(st.savedToilets, latitude, longitude, st.unitSystem, num);
      var r := FetchToiletsNearby(st, latitude, longitude, num, draws);
      && r.savedToilets == saved
      && r.toilets == SortBy(MergeSaved(generated, saved), StoreKey)
  {
  }

  /** After a fetch every saved toilet's id is in the list. */
  lemma {:induction false} FetchToiletsNearbyKeepsSaved(st: State, latitude: real, longitude: real, num: Numerics,
                                                        draws: nat -> CandidateDraws)
    ensures forall t :: t in st.savedToilets ==>
      HasId(FetchToiletsNearby(st, latitude, longitude, num, draws).toilets, t.id)
  {
    var req := Request(latitude, longitude, FetchCount, FetchRadius);
    var generated := GenerateToiletsNearLocation(req, num, draws);
    GenerateToiletsNearLocationSound(req, num, draws);
    var saved := RefreshSaved(st.savedToilets, latitude, longitude, st.unitSystem, num);
    SortedMerge(generated, saved);
    FetchParts(st, latitude, longitude, num, draws);
    SameIdsKept(st.savedToilets, saved, FetchToiletsNearby(st, latitude, longitude, num, draws).toilets);
  }

  /** Ids present for every toilet of a refreshed list are present for the
      toilets it was refreshed from. */
  lemma SameIdsKept(saved: seq<Toilet>, refreshed: seq<Toilet>, r: seq<Toilet>)
    requires |refreshed| == |saved|
    requires forall k :: 0 <= k < |saved| ==> refreshed[k].id == saved[k].id
    requires forall t :: t in refreshed ==> HasId(r, t.id)
    ensures forall t :: t in saved ==> HasId(r, t.id)
  {
    forall t | t in saved ensures HasId(r, t.id) {
      var k :| 0 <= k < |saved| && saved[k] == t;
      assert refreshed[k] in refreshed;
    }
  }

  /** After a fetch no two toilets of the list share an id, so, with the
      lemma above, each saved id appears exactly once (possibly on a fresh
      toilet rather than the saved one; see FetchToiletsNearbyShadowsSaved),
      and the list holds at most 15 plus the number saved. */
  lemma {:induction false} FetchToiletsNearbyUniqueIds(st: State, latitude: real, longitude: real, num: Numerics,
                                                       draws: nat -> CandidateDraws)
    ensures var r := FetchToiletsNearby(st, latitude, longitude, num, draws);
      && UniqueIds(r.toilets)
      && |r.toilets| <= FetchCount + |st.savedToilets|
  {
    var req := Request(latitude, longitude, FetchCount, FetchRadius);
    var generated := GenerateToiletsNearLocation(req, num, draws);
    GenerateToiletsNearLocationSound(req, num, draws);
    var saved := RefreshSaved(st.savedToilets, latitude, longitude, st.unitSystem, num);
    SortedMerge(generated, saved);
    FetchParts(st, latitude, longitude, num, draws);
  }

  /** After a fetch each toilet of the list is a refreshed saved toilet or
      a plausible generated one with id `toilet-j`, j < 15. */
  lemma {:induction false} FetchToiletsNearbyProvenance(st: State, latitude: real, longitude: real, num: Numerics,
                                                        draws: nat -> CandidateDraws)
    ensures var r := FetchToiletsNearby(st, latitude, longitude, num, draws);
      forall t :: t in r.toilets ==>
        t in r.savedToilets || (Plausible(t, FetchRadius) && exists j :: 0 <= j < FetchCount && t.id == ToiletId(j))
  {
    var req := Request(latitude, longitude, FetchCount, FetchRadius);
    var generated := GenerateToiletsNearLocation(req, num, draws);
    GenerateToiletsNearLocationSound(req, num, draws);
    var saved := RefreshSaved(st.savedToilets, latitude, longitude, st.unitSystem, num);
    SortedMerge(generated, saved);
    FetchParts(st, latitude, longitude, num, draws);
  }

  /** After a fetch the list ascends by distance, missing or zero
      distances last. */
  lemma {:induction false} FetchToiletsNearbyOrdered(st: State, latitude: real, longitude: real, num: Numerics,
                                                     draws: nat -> CandidateDraws)
    ensures DistanceOrdered(FetchToiletsNearby(st, latitude, longitude, num, draws).toilets)
  {
    var generated := GenerateToiletsNearLocation(Request(latitude, longitude, FetchCount, FetchRadius), num, draws);
    var saved := RefreshSaved(st.savedToilets, latitude, longitude, st.unitSystem, num);
    FetchParts(st, latitude, longitude, num, draws);
    StoreSortOrdered(MergeSaved(generated, saved));
  }

  /** A merged entry whose id the combined list already carries is an entry
      of the combined list: a saved toilet never displaces or duplicates
      one with its id. */
  lemma {:induction false} MergeSavedShadowed(combined: seq<Toilet>, saved: seq<Toilet>)
    ensures forall t :: t in MergeSaved(combined, saved) && HasId(combined, t.id) ==> t in combined
    decreases |saved|
  {
    if saved != [] {
      var next := if HasId(combined, saved[0].id) then combined else combined + [saved[0]];
      MergeSavedShadowed(next, saved[1..]);
      forall t | t in MergeSaved(combined, saved) && HasId(combined, t.id)
        ensures t in combined
      {
        var i :| 0 <= i < |combined| && combined[i].id == t.id;
        assert next[i] == combined[i];
        assert t in next;
      }
    }
  }

  /** Every refresh reissues the ids `toilet-0` to `toilet-14`, so a saved
      toilet with id `toilet-j` is dropped from the list when iteration j
      accepts its candidate: every entry with that id is the fresh,
      never-visited one. */
  lemma {:induction false} FetchToiletsNearbyShadowsSaved(st: State, latitude: real, longitude: real, num: Numerics,
                                                          draws: nat -> CandidateDraws, k: nat, j: nat)
    requires k < |st.savedToilets| && j < FetchCount
    requires Candidate(Request(latitude, longitude, FetchCount, FetchRadius), num, j, draws(j)).Some?
    requires st.savedToilets[k].id == ToiletId(j)
    ensures var r := FetchToiletsNearby(st, latitude, longitude, num, draws);
      forall t :: t in r.toilets && t.id == st.savedToilets[k].id ==>
        && t in GenerateToiletsNearLocation(Request(latitude, longitude, FetchCount, FetchRadius), num, draws)
        && Plausible(t, FetchRadius) && t.lastVisited.None?
  {
    var req := Request(latitude, longitude, FetchCount, FetchRadius);
    var generated := GenerateToiletsNearLocation(req, num, draws);
    GenerateToiletsNearLocationSound(req, num, draws);
    var saved := RefreshSaved(st.savedToilets, latitude, longitude, st.unitSystem, num);
    var merged := MergeSaved(generated, saved);
    AcceptedIdGenerated(req, num, draws, j);
    FetchParts(st, latitude, longitude, num, draws);
    SortByMembers(merged, StoreKey);
    MergeSavedShadowed(generated, saved);
  }

  /** A concrete case: the saved toilet `toilet-0`, visited at some time,
      is replaced after a refresh whose first candidate lands in range. The
      saved list still records the visit, but the list shows `toilet-0`
      only as a fresh toilet with no visit. */
  lemma SavedVisitLostOnRefresh(st: State, latitude: real, longitude: real, num: Numerics,
                                draws: nat -> CandidateDraws)
    requires |st.savedToilets| == 1 && st.savedToilets[0].id == ToiletId(0)
    requires st.savedToilets[0].lastVisited.Some?
    requires Candidate(Request(latitude, longitude, FetchCount, FetchRadius), num, 0, draws(0)).Some?
    ensures var r := FetchToiletsNearby(st, latitude, longitude, num, draws);
      && r.savedToilets[0].lastVisited == st.savedToilets[0].lastVisited
      && HasId(r.toilets, ToiletId(0))
      && forall t :: t in r.toilets && t.id == ToiletId(0) ==> t.lastVisited.None?
  {
    var req := Request(latitude, longitude, FetchCount, FetchRadius);
    var generated := GenerateToiletsNearLocation(req, num, draws);
    GenerateToiletsNearLocationContents(req, num, draws);
    FetchToiletsNearbyShadowsSaved(st, latitude, longitude, num, draws, 0, 0);
    FetchToiletsNearbyKeepsSaved(st, latitude, longitude, num, draws);
    assert st.savedToilets[0] in st.savedToilets;
  }

  /** setCurrentLocation: records the position, then fetches around it. */
  function SetCurrentLocation(st: State, location: Coordinate, num: Numerics,
                              draws: nat -> CandidateDraws): (r: State)
    ensures r.currentLocation == Some(location)
    ensures r.achievements == st.achievements && r.unitSystem == st.unitSystem
    ensures !r.isLoading && r.error.None?
  {
    FetchToiletsNearby(st.(currentLocation := Some(location)), location.latitude, location.longitude, num, draws)
  }

  // ------------------------------------------------------------- resetting

  /** resetAchievements: every badge back to its seed, locked at progress 0. */
  function ResetAchievements(st: State): (r: State)
    ensures r.(achievements := st.achievements) == st
    ensures |r.achievements| == 5
    ensures forall k :: 0 <= k < 5 ==> !r.achievements[k].unlocked && r.achievements[k].progress == Some(0)
    ensures Valid(st) ==> Valid(r)
  {
    st.(achievements := SeedAchievements())
  }

  // ------------------------------------------------------------ invariants

  lemma SameIdsTransitive(a: seq<Achievement>, b: seq<Achievement>, c: seq<Achievement>)
    requires SameIds(a, b) && SameIds(b, c)
    ensures SameIds(a, c)
  {
  }

  /** A refresh keeps the store valid, wherever it is centred. */
  lemma FetchPreservesValid(st: State, latitude: real, longitude: real, num: Numerics,
                            draws: nat -> CandidateDraws)
    requires Valid(st)
    ensures Valid(FetchToiletsNearby(st, latitude, longitude, num, draws))
  {
    FetchToiletsNearbyUniqueIds(st, latitude, longitude, num, draws);
    var saved := RefreshSaved(st.savedToilets, latitude, longitude, st.unitSystem, num);
    assert UniqueIds(saved) by {
      forall i, j | 0 <= i < j < |saved| ensures IdOf(saved[i]) != IdOf(saved[j]) {
        assert IdOf(st.savedToilets[i]) != IdOf(st.savedToilets[j]);
      }
    }
  }

  /** Every action keeps the store valid. */
  lemma ActionsPreserveValid(st: State, toilet: Toilet, id: string, now: int, system: UnitSystem,
                             num: Numerics, location: Coordinate, latitude: real, longitude: real,
                             draws: nat -> CandidateDraws)
    requires Valid(st)
    ensures Valid(SaveToilet(st, toilet))
    ensures Valid(RemoveSavedToilet(st, id))
    ensures Valid(VisitToilet(st, id, now))
    ensures Valid(SetUnitSystem(st, system, num))
    ensures Valid(FetchToiletsNearby(st, latitude, longitude, num, draws))
    ensures Valid(SetCurrentLocation(st, location, num, draws))
    ensures Valid(ResetAchievements(st))
  {
    SameIdsTransitive(SeedAchievements(), st.achievements, VisitToilet(st, id, now).achievements);
    FetchPreservesValid(st, latitude, longitude, num, draws);
    FetchPreservesValid(st.(currentLocation := Some(location)), location.latitude, location.longitude, num, draws);
  }

  /** No action but resetAchievements re-locks a badge or touches anything
      of a badge beyond `unlocked` and `progress`. */
  lemma ActionsOnlyAdvanceAchievements(st: State, toilet: Toilet, id: string, now: int, system: UnitSystem,
                                       num: Numerics, location: Coordinate, latitude: real, longitude: real,
                                       draws: nat -> CandidateDraws)
    ensures Advances(st.achievements, SaveToilet(st, toilet).achievements)
    ensures Advances(st.achievements, RemoveSavedToilet(st, id).achievements)
    ensures Advances(st.achievements, VisitToilet(st, id, now).achievements)
    ensures Advances(st.achievements, SetUnitSystem(st, system, num).achievements)
    ensures Advances(st.achievements, FetchToiletsNearby(st, latitude, longitude, num, draws).achievements)
    ensures Advances(st.achievements, SetCurrentLocation(st, location, num, draws).achievements)
  {
  }
}

=== FILE: types.dfy ===
/** The domain records of the app (types/toilet.ts): a toilet, an
    achievement badge and the unit system, plus the numeric routines the
    model treats as opaque (passed in as function values). */
module ToiletTypes {
  import Seqs

  /** A TypeScript optional field (`x?: T`): absent or present. */
  datatype Option<T> = None | Some(value: T)

  type NonNegReal = r: real | 0.0 <= r

  datatype UnitSystem = Miles | Kilometers

  /** A toilet. `lastVisited` (an ISO date string in the app) is a
      millisecond timestamp; `rating` is the number shown with one decimal. */
  datatype Toilet = Toilet(
    id: string,
    name: string,
    address: string,
    latitude: real,
    longitude: real,
    distance: Option<real>,
    rating: Option<real>,
    isFree: bool,
    isAccessible: bool,
    hasChangingTable: bool,
    lastVisited: Option<int>,
    visitCount: Option<int>)

  datatype Achievement = Achievement(
    id: string,
    title: string,
    description: string,
    icon: string,
    unlocked: bool,
    progress: Option<int>,
    goal: Option<int>)

  /** The floating-point routines the model does not reproduce:
      `calculateDistance(lat1, lon1, lat2, lon2, inKilometers)` (haversine,
      rounded to two decimals, never negative), `x.toFixed(1)` and
      `parseFloat(x.toFixed(2))`. */
  datatype Numerics = Numerics(
    distance: (real, real, real, real, bool) -> NonNegReal,
    toFixed1: real -> string,
    round2: real -> real)

  function IdOf(t: Toilet): (id: string) {
    t.id
  }

  /** Some toilet of the list carries id. */
  predicate HasId(s: seq<Toilet>, id: string) {
    exists i :: 0 <= i < |s| && s[i].id == id
  }

  /** No two toilets of the list share an id. */
  ghost predicate UniqueIds(s: seq<Toilet>) {
    Seqs.NoDupBy(s, IdOf)
  }

  /** JavaScript truthiness of an optional number: present and non-zero. */
  predicate Truthy(o: Option<real>) {
    o.Some? && o.value != 0.0
  }

  /** An optional counter, absent read as 0. */
  function OrZero(o: Option<int>): (n: int) {
    if o.Some? then o.value else 0
  }

  /** The array `find` by id: the first position holding id. */
  function FindAchievement(achs: seq<Achievement>, id: string): (r: Option<nat>)
    ensures r.Some? ==> r.value < |achs| && achs[r.value].id == id
    ensures r.Some? ==> forall k :: 0 <= k < r.value ==> achs[k].id != id
    ensures r.None? ==> forall k :: 0 <= k < |achs| ==> achs[k].id != id
  {
    if achs == [] then None
    else if achs[0].id == id then Some(0)
    else match FindAchievement(achs[1..], id)
      case None => None
      case Some(k) => Some(k + 1)
  }

  /** `find` returns the first position holding the id, and only that one. */
  lemma FindAchievementAt(achs: seq<Achievement>, id: string, k: nat)
    requires k < |achs| && achs[k].id == id
    requires forall j :: 0 <= j < k ==> achs[j].id != id
    ensures FindAchievement(achs, id) == Some(k)
  {
  }
}
